=== FILE: README.md ===
# gears core and CosmWasm module: a Dafny model

This project models the core of the gears Cosmos SDK framework, together with its
CosmWasm module and the `wasmvm` wrapper crate, and proves properties of that model.
The core covered is:

- **Pagination**: the request and response types and their conversions to and from the
  core and cosmos-sdk-proto page messages. This includes the checked offset product
  and the saturating narrowings (`pagination_request.dfy`, `pagination_response.dfy`).
- **`UnsignedCoin`**:
  - text parsing and printing (`"<amount><denom>"`);
  - the two protobuf `Coin` conversions and the coin-list conversions;
  - the `IntProto`/`Uint256Proto` pair;
  - the pagination key of a coin (`coin.dfy`, on top of `decimal.dfy`).
- **`BlockContext`**: the header accessors, the constant transaction index and hash, and
  the event buffer (push, append, drain). The store handle is opaque (`block_context.dfy`).
- **Wasm messages**:
  - the `AccessType` ↔ i32 codec;
  - `AccessConfig`, with its validation and protobuf conversion;
  - the `validate_basic` of every message;
  - the admin `Option` ↔ empty-string convention;
  - the message type URLs (`wasm_message.dfy`).
- **Wasm params**: defaults, key names, `to_raw`/`from_raw` over the subspace's key/value
  map, the protobuf conversion, and the governance update check (`wasm_params.dfy`).
- **Genesis**: `init_genesis` and `export_genesis` over one module's key/value namespace,
  modelled as a sorted association list (`kv_store.dfy`, `wasm_genesis.dfy`).
- **`CosmwasmEngine`**: the code-id bookkeeping. A code id is the first 8 bytes of the
  checksum, read big-endian. Contract lookup goes through the 8-byte address
  (`wasm_engine.dfy`).
- **`WasmError`**: its display text and the mapping to ABCI codes 1–5 (`wasm_error.dfy`).
- **`wasmvm`**:
  - `create_checksum`, whose magic number `\0asm` is the module preamble of section
    5.5.16 of the WebAssembly Core Specification 2.0;
  - `compile_cost`;
  - the gas check in `store_code`;
  - the splitting of the comma-separated lists that `analyze_code` returns (`wasmvm.dfy`).

Foreign code becomes a parameter:
- SHA-256 (FIPS 180-4, section 6.2) is a function to 32 bytes.
- Bech32 addresses are an `AddressCodec` pair, and serde_json for `AccessConfig` is a
  `JsonCodec` pair. Where a round trip needs them, the `LawfulAddressCodec` and
  `LawfulJsonCodec` predicates state their laws.
- The VM cache's answers are passed-in results, and so are the keeper's `store_code`
  and the contract run.
- `UnsignedCoins::new` is a passed-in validation function.

Fixed-width integers are `nat` subset types. Each Rust cast is written out:
- saturating `try_into().unwrap_or(MAX)`;
- `checked_mul`;
- truncating `as u32`/`as i32`;
- wrapping u64 multiplication.

## Model

| member | source | states |
|---|---|---|
| PaginationRequest.ToPagination | gears/src/types/pagination/request.rs:33-49 | a key request becomes a by-key page with the same key; an offset request becomes a by-offset page whose offset is offset × limit when that fits in u32 and `usize::MAX` otherwise; the limit is kept |
| PaginationRequest.FromPageRequest | gears/src/types/pagination/request.rs:51-71 | a non-empty key selects key paging with that key, otherwise offset paging with the offset saturated to u32; the limit saturates to u8 |
| PaginationRequest.ToPageRequest | gears/src/types/pagination/request.rs:73-87 | key paging writes the key and offset 0, offset paging writes an empty key and the offset; count_total and reverse are false; the limit is kept |
| PaginationRequest.PageRequestRoundTrip | gears/src/types/pagination/request.rs:51-87 | converting a request to a page request and back gives the same request |
| PaginationRequest.PageRequestNormalises | gears/src/types/pagination/request.rs:51-87 | going from page request to request and back is idempotent, and it gives the original back exactly when the flags are off, the limit fits in u8, and the offset is 0 beside a key or fits in u32 without one |
| PaginationRequest.FromSdkPageRequest | gears/src/types/pagination/request.rs:89-101 | never fails, and agrees with the core page-request conversion on the same fields |
| PaginationRequest.ToSdkPageRequest | gears/src/types/pagination/request.rs:103-114 | a key request carries its key with offset 0, an offset request an empty key with its offset; the limit is kept and both flags are false |
| PaginationRequest.SdkPageRequestRoundTrip | gears/src/types/pagination/request.rs:89-114 | the cosmos-sdk page request round trip returns the request |
| PaginationResponse.New | gears/src/types/pagination/response.rs:17-24 | the response holds the given key and total |
| PaginationResponse.PageResponseInverse | gears/src/types/pagination/response.rs:26-36 | the two core page-response conversions are inverse in both directions |
| PaginationResponse.FromResultElement | gears/src/types/pagination/response.rs:38-52 | the total is copied; the next key is the iterator key of the next element, or empty when there is none |
| PaginationResponse.SdkPageResponseInverse | gears/src/types/pagination/response.rs:54-72 | the cosmos-sdk conversion never fails and is inverse to its partner in both directions |
| Coin.ParseUint256 | gears/src/types/base/coin/unsigned.rs:51-52 | succeeds exactly on non-empty decimal digits whose value is below 2^256, giving that value; every failure is a `Uint` error |
| Coin.AmountEnd | gears/src/types/base/coin/unsigned.rs:120 | the split point is the first non-numeric character, or the length when every character is numeric |
| Coin.FromStrOutcome | gears/src/types/base/coin/unsigned.rs:115-132 | the amount is parsed first: a bad amount is a `Uint` error whatever follows, and only a good amount lets a bad denom be a `Denom` error; success means both parts parse, and gives the coin built from them |
| Coin.FromStrAllNumeric | gears/src/types/base/coin/unsigned.rs:120-130 | text made only of numeric characters leaves an empty denom and is rejected |
| Coin.ToString | gears/src/types/base/coin/unsigned.rs:180-184 | the text is canonical decimal digits followed by exactly the denom |
| Coin.FromStrToString | gears/src/types/base/coin/unsigned.rs:115-132 | parsing the displayed text of a coin gives the coin back |
| Coin.FromProto | gears/src/types/base/coin/unsigned.rs:74-86 | the denom is checked first: a bad denom is a `Denom` error, then a bad amount is a `Uint` error; success means both parse, and keeps the denom and the parsed amount |
| Coin.ToProto | gears/src/types/base/coin/unsigned.rs:88-95 | the denom is kept and the amount becomes its canonical decimal text |
| Coin.ProtoRoundTrip | gears/src/types/base/coin/unsigned.rs:43-65 | converting a coin to protobuf and back gives the coin |
| Coin.CoinsToProto | gears/src/types/base/coin/unsigned.rs:97-101 | one message per coin, in order, and each converts back to its coin |
| Coin.FromProtoAll | gears/src/types/base/coin/unsigned.rs:107-110 | succeeds exactly when every element converts, keeping the order; otherwise the error is the first failing element's |
| Coin.CoinsFromProto | gears/src/types/base/coin/unsigned.rs:103-113 | any element that fails gives a `Coin` error before validation, carrying the first failing element's error; otherwise the result is the list validation applied to the converted coins |
| Coin.FromIntProto | gears/src/types/base/coin/unsigned.rs:155-162 | succeeds exactly when the text parses as a Uint256, with that value; a failure is a `Uint` error |
| Coin.ToIntProto | gears/src/types/base/coin/unsigned.rs:164-170 | the integer is written as canonical decimal text |
| Coin.IntProtoRoundTrip | gears/src/types/base/coin/unsigned.rs:155-170 | a `Uint256Proto` survives conversion to `IntProto` and back |
| Coin.IntProtoCanonical | gears/src/types/base/coin/unsigned.rs:155-170 | canonical decimal text that parses comes back unchanged |
| Coin.IteratorKey | gears/src/types/base/coin/unsigned.rs:174-178 | the key is the denom's bytes, one per character |
| Coin.IteratorKeyInjective | gears/src/types/base/coin/unsigned.rs:174-178 | coins with equal pagination keys have equal denoms |
| Decimal.Print | gears/src/types/base/coin/unsigned.rs:62 | integer display is canonical decimal text denoting the number |
| Decimal.Parse | gears/src/types/base/coin/unsigned.rs:52 | decimal parsing succeeds exactly on non-empty digit strings, and the value is the number they write, leading zeros included |
| Decimal.PrintBytesCanonical | x/wasm/src/params.rs:106-121 | the bytes of `to_string()` are canonical decimal text that parses back to the number |
| Decimal.ParsePrint | gears/src/types/base/coin/unsigned.rs:52-62 | parsing a printed number returns it |
| Decimal.PrintParse | gears/src/types/base/coin/unsigned.rs:52-62 | printing the value of canonical text returns that text |
| BlockContext.New | gears/src/context/block.rs:30-43 | a new context starts with no events and answers height, chain id, time and consensus params from its arguments |
| BlockContext.TxIndex | gears/src/context/block.rs:111-113 | the transaction index is always 0 |
| BlockContext.TxHash | gears/src/context/block.rs:115-117 | the transaction hash is 32 zero bytes |
| BlockContext.WithStore | gears/src/context/block.rs:107-109 | writing the store changes only the store |
| BlockContext.PushEvent | gears/src/context/block.rs:91-93 | the event is added at the end, the earlier events are unchanged, and nothing but the events changes |
| BlockContext.AppendEvents | gears/src/context/block.rs:95-97 | the events are added at the end in order, and nothing but the events changes |
| BlockContext.EventsDrain | gears/src/context/block.rs:99-101 | returns every buffered event and leaves the buffer empty, with nothing else changed |
| BlockContext.DrainTwice | gears/src/context/block.rs:99-101 | a second drain returns nothing and changes nothing |
| BlockContext.AppendIsPushAll | gears/src/context/block.rs:91-97 | appending a list is the same as pushing its events one by one |
| BlockContext.DrainAfterPushes | gears/src/context/block.rs:91-101 | after pushes, a drain returns the old events followed by the pushed ones |
| BlockContext.StoreAndEventsIndependent | gears/src/context/block.rs:91-109 | event operations and store writes commute and do not affect each other |
| WasmMessage.AccessTypeToI32 | x/wasm/src/message.rs:105-114 | Unspecified is written as 0, Nobody as 1, Everybody as 3 and AnyOfAddresses as 4, and no other number is written |
| WasmMessage.AccessTypeFromI32 | x/wasm/src/message.rs:88-93 | 1 decodes to Nobody, 3 to Everybody, 4 to AnyOfAddresses, and any other number to Unspecified |
| WasmMessage.AccessTypeRoundTrip | x/wasm/src/message.rs:68-93 | decoding the encoding of an access type returns it |
| WasmMessage.AccessTypeDecodeEncode | x/wasm/src/message.rs:68-93 | decoding then encoding an integer returns it exactly when it is 0, 1, 3 or 4 |
| WasmMessage.AccessConfigValidateBasic | x/wasm/src/message.rs:53-65 | valid exactly for Nobody, Everybody, or AnyOfAddresses with at least one address |
| WasmMessage.AccessConfigToProto | x/wasm/src/message.rs:68-75 | the permission is its discriminant and each address is its bech32 text, in order |
| WasmMessage.ParseAddresses | x/wasm/src/message.rs:81-87 | succeeds exactly when every address decodes, giving the decoded addresses in order; a failure is the error of the first address that does not decode |
| WasmMessage.AccessConfigFromProto | x/wasm/src/message.rs:77-99 | succeeds exactly when every address decodes; the permission is the decoded discriminant and the addresses are the decoded ones, in order; a failure is the first undecodable address's error |
| WasmMessage.AccessConfigProtoRoundTrip | x/wasm/src/message.rs:68-99 | with a lawful address codec, an access config survives the protobuf round trip |
| WasmMessage.StoreCodeValidateBasic | x/wasm/src/message.rs:129-137 | empty code is rejected first; otherwise only a present instantiate permission is checked |
| WasmMessage.Trim | x/wasm/src/message.rs:189 | the result is a slice of the text with only white space cut from either end; it is empty exactly when the text is all white space, and otherwise starts and ends with non-space |
| WasmMessage.BordersAfterFirst | x/wasm/src/message.rs:189 | a leading white-space character can be cut without changing which slice is the trimmed text |
| WasmMessage.BordersBeforeLast | x/wasm/src/message.rs:189 | a trailing white-space character can be cut without changing which slice is the trimmed text |
| WasmMessage.InstantiateValidateBasic | x/wasm/src/message.rs:185-193 | a zero code id is rejected first; otherwise the message is valid exactly when the label holds a non-white-space character |
| WasmMessage.AdminToProto | x/wasm/src/message.rs:200 | no admin is the empty string; an admin is its bech32 text |
| WasmMessage.AdminFromProto | x/wasm/src/message.rs:215-222 | the empty string is no admin; other text is an admin exactly when it decodes |
| WasmMessage.AdminRoundTrip | x/wasm/src/message.rs:200-222 | with a lawful codec, the optional admin survives the round trip |
| WasmMessage.ExecuteValidateBasic | x/wasm/src/message.rs:254-259 | valid exactly when the message body is non-empty |
| WasmMessage.MigrateValidateBasic | x/wasm/src/message.rs:310-315 | valid exactly when the code id is non-zero |
| WasmMessage.UpdateAdminValidateBasic | x/wasm/src/message.rs:359-364 | valid exactly when the new admin differs from the sender |
| WasmMessage.ClearAdminValidateBasic | x/wasm/src/message.rs:407-409 | always valid |
| WasmMessage.TypeUrlInjective | x/wasm/src/message.rs:439-458 | different message kinds have different type URLs |
| WasmParams.DefaultParams | x/wasm/src/params.rs:36-48 | upload access Everybody with no addresses, default permission Everybody, 1 000 000 bytes, 3 000 000 gas, 40 cached modules |
| WasmParams.Keys | x/wasm/src/params.rs:88-98 | there are five distinct keys |
| WasmParams.ToRaw | x/wasm/src/params.rs:100-123 | five entries with distinct keys from the key set: the upload access as its JSON text, the permission as its i32 discriminant and the contract size, gas limit and cache size, each as canonical decimal text of that number |
| WasmParams.ToRawKeys | x/wasm/src/params.rs:88-123 | the raw map of the entries has exactly the key set as its keys |
| WasmParams.U64Or | x/wasm/src/params.rs:137-158 | a value that parses as u64 is used, otherwise the default |
| WasmParams.FromRaw | x/wasm/src/params.rs:127-161 | a malformed or missing upload access is the default access config, otherwise the decoded one; the permission is Nobody, Everybody or AnyOfAddresses exactly when the low 32 bits of the parsed value (0 if unparsable) are 1, 3 or 4; the contract size and gas limit are the parsed values or 1 000 000 and 3 000 000; the cache size is the low 32 bits of the parsed value or 40 |
| WasmParams.FromRawToRaw | x/wasm/src/params.rs:100-161 | reading back the raw form restores the permission and the three numbers; with a lawful JSON codec it restores the whole record |
| WasmParams.FromRawEmpty | x/wasm/src/params.rs:127-161 | an empty map gives Unspecified access and permission with the numeric defaults, which differs from the default params |
| WasmParams.FromRawMalformed | x/wasm/src/params.rs:133-158 | an unparsable permission is Unspecified and an unparsable cache size is 40 |
| WasmParams.FromRawNarrows | x/wasm/src/params.rs:133-158 | in any map, a stored permission n reads as the low 32 bits of n taken as i32 and a stored cache size as its low 32 bits, so 2^32+1 reads as Nobody and 2^32+40 as 40 |
| WasmParams.ToProto | x/wasm/src/params.rs:51-58 | the upload access is always present and the permission decodes back to the same access type |
| WasmParams.FromProto | x/wasm/src/params.rs:60-83 | missing access becomes Unspecified with no addresses; present access must convert and is then the converted config; the permission is decoded; the runtime fields take their defaults |
| WasmParams.ProtoRoundTrip | x/wasm/src/params.rs:51-83 | the protobuf round trip keeps the access fields and resets the three runtime fields to their defaults |
| WasmParams.Validate | x/wasm/src/params.rs:177-190 | the upload access key accepts exactly decodable JSON, the numeric keys accept exactly u64 text, and any other key is refused |
| WasmParams.ToRawValidates | x/wasm/src/params.rs:100-190 | every entry written by `to_raw` passes the update check |
| KvStore.Get | x/wasm/src/genesis.rs:105-109 | a value is found exactly when the key is present, and it is that key's entry |
| KvStore.Set | x/wasm/src/genesis.rs:75-78 | after a write the key reads the new value, every other key reads as before, and no foreign key appears |
| KvStore.ScanPrefix | x/wasm/src/genesis.rs:99-103 | the scan holds exactly the entries whose key has the prefix, in key order |
| KvStore.SameEntriesSameStore | x/wasm/src/genesis.rs:99-103 | two key-sorted stores with the same entries are equal, so a range scan's order is fixed by its entries |
| WasmGenesis.StoreAll | x/wasm/src/genesis.rs:71-73 | the codes are stored one after another in list order, each on the store the previous call returned; the run ends after the last code with the final store, or at the first failing code with its error and the store that failing call left |
| WasmGenesis.StoredInOrderCons | x/wasm/src/genesis.rs:71-73 | a successful first call followed by an ordered run of the rest is an ordered run of the whole list |
| WasmGenesis.InitGenesis | x/wasm/src/genesis.rs:57-81 | a store failure is returned as is; otherwise the next-code-id key holds the id's 8 big-endian bytes and every other key is as the code loop left it |
| WasmGenesis.ReadNextCodeId | x/wasm/src/genesis.rs:105-109 | a missing value or one not 8 bytes long reads as 0; otherwise the value is the id's big-endian bytes |
| WasmGenesis.ExportGenesis | x/wasm/src/genesis.rs:87-115 | the codes are the values of a sorted store holding exactly the entries under the code prefix, so they come in ascending key order; each code is such a value; the next id is the stored one |
| WasmGenesis.ExportInKeyOrder | x/wasm/src/genesis.rs:99-104 | any sorted store holding exactly the code entries lists their values in the exported order |
| WasmGenesis.InitExportNextCodeId | x/wasm/src/genesis.rs:57-115 | after a successful init, export returns the genesis next code id |
| WasmGenesis.ExportMalformedNextCodeId | x/wasm/src/genesis.rs:105-109 | a stored next id that is not 8 bytes exports as 0 |
| WasmEngine.CodeId | x/wasm/src/engine.rs:140-142 | the code id's big-endian bytes are the first 8 bytes of the checksum |
| WasmEngine.StoreCode | x/wasm/src/engine.rs:129-145 | a cache error leaves the engine unchanged and is returned; otherwise the id is the truncated checksum, mapped to the checksum, with every other id kept |
| WasmEngine.Instantiate | x/wasm/src/engine.rs:147-171 | an unknown code id is the "unknown code id" cache error; a known one runs the instantiate entry point of its checksum, sent by "creator" |
| WasmEngine.ContractKey | x/wasm/src/engine.rs:176-177 | an 8-byte address is read big-endian, and any other length reads as 0 |
| WasmEngine.LookupContract | x/wasm/src/engine.rs:173-179 | found exactly when the address key is mapped, and otherwise the "unknown contract" cache error |
| WasmEngine.Execute | x/wasm/src/engine.rs:173-195 | an unknown contract is the cache error; a known one runs the execute entry point of its checksum, sent by "caller" |
| WasmEngine.Query | x/wasm/src/engine.rs:197-217 | an unknown contract is the cache error; a known one runs the query entry point of its checksum, with no message info |
| WasmEngine.StoreThenInstantiate | x/wasm/src/engine.rs:129-171 | stored code can be instantiated under the returned id |
| WasmEngine.StoreThenExecute | x/wasm/src/engine.rs:129-195 | stored code can be executed at the address made of the id's bytes |
| WasmEngine.TruncationCollision | x/wasm/src/engine.rs:140-143 | two checksums that share their first 8 bytes get the same id, and the later one replaces the earlier |
| WasmEngine.ShortAddressIsKeyZero | x/wasm/src/engine.rs:176-179 | an address that is not 8 bytes finds the same contract as eight zero bytes |
| WasmError.IntoTxError | x/wasm/src/error.rs:42-52 | the code is non-zero, each variant has its own code 1 to 5, and the message is the display text |
| WasmError.CodeInjective | x/wasm/src/error.rs:42-52 | errors with equal codes are the same variant |
| WasmError.DisplayInjective | x/wasm/src/error.rs:15-35 | the display text determines the variant and the modelled payload |
| Wasmvm.CreateChecksum | wasmvm/src/lib.rs:111-124 | empty input, then input under 4 bytes, then a wrong magic number are each rejected with their own error; otherwise the checksum is the SHA-256 of the input |
| Wasmvm.ChecksumOfModule | wasmvm/src/lib.rs:111-124 | any input that starts with the magic number gets its SHA-256 as checksum |
| Wasmvm.CompileCost | wasmvm/src/lib.rs:36-40 | the cost is 420 000 gas per byte while that fits in u64 |
| Wasmvm.CompileCostMonotone | wasmvm/src/lib.rs:36-40 | longer code never costs less within that range |
| Wasmvm.StoreCode | wasmvm/src/lib.rs:204-230 | "out of gas" when the limit is below the cost; otherwise a VM error is passed through, a result that is not 32 bytes is rejected, and a 32-byte result gives success with the VM's checksum and the cost |
| Wasmvm.OutOfGasBeforeForeignCall | wasmvm/src/lib.rs:209-212 | when gas is short, the outcome does not depend on the VM at all |
| Wasmvm.Split | wasmvm/src/lib.rs:317 | splitting always gives at least one piece, and no piece holds a comma |
| Wasmvm.SplitCount | wasmvm/src/lib.rs:317 | there is one piece more than there are commas |
| Wasmvm.JoinSplit | wasmvm/src/lib.rs:317 | joining the pieces with commas gives the text back |
| Wasmvm.SplitJoin | wasmvm/src/lib.rs:317 | splitting comma-joined comma-free pieces gives the pieces back |
| Wasmvm.SplitUnique | wasmvm/src/lib.rs:317 | comma-free pieces that join back to a text are exactly its split |
| Wasmvm.SplitList | wasmvm/src/lib.rs:314-323 | empty text is an empty list; otherwise one entry more than there are commas, no entry holds a comma, and the entries join back to the text |
| Wasmvm.FromReport | wasmvm/src/lib.rs:314-337 | the flag and version are copied, an empty list stays empty, and each non-empty list becomes comma-free entries that join back to it |
| Wasmvm.FromReportSplits | wasmvm/src/lib.rs:314-323 | each non-empty list is split at every comma, as `str::split(',')` does |
| Bytes.FromToBigEndian | x/wasm/src/genesis.rs:76 | decoding a big-endian encoding returns the number |
| Bytes.ToFromBigEndian | x/wasm/src/genesis.rs:107 | encoding a decoded byte string at its own length gives it back |
| Bytes.U64FromBeBytes | x/wasm/src/engine.rs:142 | the 8 bytes are the big-endian encoding of the result |

## Left out

- FFI calls and the VM: the cache, compilation, instance creation, `call_*_raw`, pinning
  and metrics are oracles or not modelled. Engine and VM contracts hold for any oracle.
- SHA-256, bech32, serde_json and protobuf wire encoding: the parameters stand for them.
  Their lawfulness is assumed only where a lemma says so.
- `Uint256::from_str` and `ParamKind::U64`: modelled as parsing non-empty ASCII digits.
  The real parsers are not part of this model, so edge cases such as a leading `+` are
  not captured.
- `Denom`: its parser is not part of this model. It is modelled as the Cosmos SDK
  pattern `[a-zA-Z][a-zA-Z0-9/:._-]{2,127}`.
- `UnsignedCoins::new`: passed in as a function, since the coin-list type is not part of
  this model.
- Coin.IsNumeric: `char::is_numeric` is covered by the ASCII digits plus a
  representative subset of Unicode numerics, not the full Unicode table.
- Coin.CoinsFromProto: stores the failing coin's `CoinError` itself, where the source
  stores its display text.
- UnsignedCoin to and from `Vec<u8>`: these are protobuf wire encoding, left out for
  the same reason as protobuf above.
- Wasmvm.CompileCost: the contract covers only lengths up to 43 920 819 223 117 bytes.
  Beyond that the body wraps the product modulo 2^64, as a release build does; a debug
  build would panic instead.
- WasmParams.Validate: a key that is not UTF-8 is read byte by byte. It therefore
  matches no key name, which is also what the source's empty-string fallback gives.
- `on_update`, the parameter keeper's storage, `abci_handler`, `keeper.rs`, CLI and REST
  handlers: not part of the named core.
- Multi-store internals: prefixes, versions, commits and gas metering. One module's
  namespace is a sorted key/value list.
- `kv_store_mut(..).set`: the error path is not modelled; the write always succeeds.
- WasmGenesis.ExportGenesis: the keeper's key constants (`NEXT_CODE_ID_KEY`,
  `CODE_PREFIX`) are parameters of the model (`KeyLayout`).
- WasmGenesis.InitGenesis: there is no codes round trip with export. What the keeper
  writes under the code prefix is not part of this model; StoreAll states the order of
  the `store_code` calls, and ExportGenesis the order of the exported values.
- WasmError.IntoTxError: the codespace taken from `ModuleInfo` is not modelled.
- WasmError.DisplayInjective: the foreign errors wrapped by the `Vm`, `Serde` and `Gas`
  variants are represented by their display text, so injectivity holds for the model's
  payloads; whether the foreign `Display` implementations are injective is not claimed.
- The protobuf conversions of the store-code, instantiate, execute, migrate and admin
  messages beyond the admin field: they are straight field copies plus address and
  coin decoding, which the access-config and coin conversions already cover.
- The serde JSON form of `Message`: only the type URLs are modelled.
- Concurrency and the `unsafe` memory handling of the `wasmvm` vectors.
- Wasmvm.FromReport: the report's two lists are taken as text, so the failure of
  `analyze_code` when the native side hands back bytes that are not valid UTF-8
  (`consume_string`) is not modelled.
- WasmGenesis.StoreAll: what `store_code` writes, including before a failure, is the
  parameter's answer; the keeper code behind it is not part of this model.

=== FILE: block_context.dfy ===
/**
 * `BlockContext`: the context a block hook (begin/end block) runs in. It holds
 * the multi-store borrow, the block height, the block header and consensus
 * parameters, and a buffer of events emitted during the block. Each `&mut self`
 * operation is a function from the old context to the new one.
 */
module BlockContext {
  import opened Bytes

  datatype Timestamp = Timestamp(seconds: int, nanos: int)

  /** The header fields this context reads; the rest of the header is not modelled. */
  datatype Header = Header(chainId: string, time: Timestamp)

  datatype EventAttribute = EventAttribute(key: seq<byte>, value: seq<byte>, index: bool)

  datatype Event = Event(kind: string, attributes: seq<EventAttribute>)

  /**
   * `Store` stands for the application multi-store the context borrows and
   * `Params` for the consensus parameters; the context never looks inside either.
   */
  datatype BlockContext<Store, Params> = BlockContext(
    multiStore: Store,
    height: u32,
    header: Header,
    consensusParams: Params,
    events: seq<Event>)

  function New<S, P>(multiStore: S, height: u32, header: Header, consensusParams: P): (ctx: BlockContext<S, P>)
    ensures ctx.events == []
    ensures ctx.multiStore == multiStore && ctx.consensusParams == consensusParams
    ensures Height(ctx) == height && ChainId(ctx) == header.chainId && GetTime(ctx) == header.time
  {
    BlockContext(multiStore, height, header, consensusParams, [])
  }

  function Height<S, P>(ctx: BlockContext<S, P>): u32
  {
    ctx.height
  }

  function ChainId<S, P>(ctx: BlockContext<S, P>): string
  {
    ctx.header.chainId
  }

  function GetTime<S, P>(ctx: BlockContext<S, P>): Timestamp
  {
    ctx.header.time
  }

  function ConsensusParams<S, P>(ctx: BlockContext<S, P>): P
  {
    ctx.consensusParams
  }

  /** A block hook is not a transaction: its index is always 0. */
  function TxIndex<S, P>(ctx: BlockContext<S, P>): (i: u32)
    ensures i == 0
  {
    0
  }

  /** ... and its transaction hash is always 32 zero bytes. */
  function TxHash<S, P>(ctx: BlockContext<S, P>): (h: seq<byte>)
    ensures |h| == 32 && forall i :: 0 <= i < 32 ==> h[i] == 0
  {
    seq(32, _ => 0)
  }

  /** Read access to the multi-store (`kv_store`): it never involves the events. */
  function KvStore<S, P>(ctx: BlockContext<S, P>): S
  {
    ctx.multiStore
  }

  /**
   * The context after writes made through `kv_store_mut` have turned the
   * multi-store into `store`: only the store changes.
   */
  function WithStore<S, P>(ctx: BlockContext<S, P>, store: S): (r: BlockContext<S, P>)
    ensures KvStore(r) == store
    ensures r.events == ctx.events && r.header == ctx.header && r.height == ctx.height
    ensures r.consensusParams == ctx.consensusParams
  {
    ctx.(multiStore := store)
  }

  /** Everything but the event buffer. */
  ghost predicate SameExceptEvents<S, P>(a: BlockContext<S, P>, b: BlockContext<S, P>)
  {
    a.(events := []) == b.(events := [])
  }

  function PushEvent<S, P>(ctx: BlockContext<S, P>, e: Event): (r: BlockContext<S, P>)
    ensures |r.events| == |ctx.events| + 1
    ensures r.events[..|ctx.events|] == ctx.events && r.events[|ctx.events|] == e
    ensures SameExceptEvents(ctx, r)
  {
    ctx.(events := ctx.events + [e])
  }

  function AppendEvents<S, P>(ctx: BlockContext<S, P>, es: seq<Event>): (r: BlockContext<S, P>)
    ensures |r.events| == |ctx.events| + |es|
    ensures r.events[..|ctx.events|] == ctx.events && r.events[|ctx.events|..] == es
    ensures SameExceptEvents(ctx, r)
  {
    ctx.(events := ctx.events + es)
  }

  /** `events_drain`: hands back the buffered events and empties the buffer. */
  function EventsDrain<S, P>(ctx: BlockContext<S, P>): (r: (BlockContext<S, P>, seq<Event>))
    ensures r.1 == ctx.events
    ensures r.0.events == []
    ensures SameExceptEvents(ctx, r.0)
  {
    (ctx.(events := []), ctx.events)
  }

  /** Draining twice in a row: the second drain returns nothing. */
  lemma DrainTwice<S, P>(ctx: BlockContext<S, P>)
    ensures EventsDrain(EventsDrain(ctx).0).1 == []
    ensures EventsDrain(EventsDrain(ctx).0).0 == EventsDrain(ctx).0
  {
  }

  /** Pushing events one at a time, in order. */
  function PushAll<S, P>(ctx: BlockContext<S, P>, es: seq<Event>): BlockContext<S, P>
    decreases |es|
  {
    if |es| == 0 then ctx else PushAll(PushEvent(ctx, es[0]), es[1..])
  }

  /** Appending a batch is the same as pushing its events one by one. */
  lemma {:induction false} AppendIsPushAll<S, P>(ctx: BlockContext<S, P>, es: seq<Event>)
    ensures AppendEvents(ctx, es) == PushAll(ctx, es)
    decreases |es|
  {
    if |es| > 0 {
      AppendIsPushAll(PushEvent(ctx, es[0]), es[1..]);
      assert ctx.events + [es[0]] + es[1..] == ctx.events + es;
    }
  }

  /** What a drain returns after a sequence of pushes: the events in push order. */
  lemma DrainAfterPushes<S, P>(ctx: BlockContext<S, P>, es: seq<Event>)
    ensures EventsDrain(PushAll(ctx, es)).1 == ctx.events + es
    ensures SameExceptEvents(ctx, EventsDrain(PushAll(ctx, es)).0)
  {
    AppendIsPushAll(ctx, es);
  }

  /** Writing to the store and emitting events commute. */
  lemma StoreAndEventsIndependent<S, P>(ctx: BlockContext<S, P>, store: S, e: Event)
    ensures PushEvent(WithStore(ctx, store), e) == WithStore(PushEvent(ctx, e), store)
    ensures KvStore(PushEvent(ctx, e)) == KvStore(ctx)
    ensures KvStore(EventsDrain(ctx).0) == KvStore(ctx)
  {
  }
}

=== FILE: bytes.dfy ===
/**
 * Machine integers and byte strings: the integer widths the Rust source uses,
 * its saturating (`try_into().unwrap_or(MAX)`) and truncating (`as`) casts,
 * big-endian `to_be_bytes`/`from_be_bytes`, and ASCII text as bytes.
 */
module Bytes {
  import opened Wrappers

  type byte = b: int | 0 <= b < 0x100

  const U8_MAX: int := 0xFF
  const U32_MAX: int := 0xFFFF_FFFF
  const U64_MAX: int := 0xFFFF_FFFF_FFFF_FFFF
  /** `usize::MAX` on the 64-bit targets the node runs on. */
  const USIZE_MAX: int := U64_MAX

  type u8 = n: int | 0 <= n <= U8_MAX
  type u32 = n: int | 0 <= n <= U32_MAX
  type u64 = n: int | 0 <= n <= U64_MAX
  type usize = n: int | 0 <= n <= USIZE_MAX
  type i32 = n: int | -0x8000_0000 <= n < 0x8000_0000

  /** A 32-byte array such as `[u8; 32]` (a SHA-256 digest, a checksum, a tx hash). */
  type Bytes32 = s: seq<byte> | |s| == 32 witness seq(32, _ => 0)

  /** `u64::try_into::<u32>().unwrap_or(u32::MAX)` */
  function SaturateU32(n: u64): (r: u32)
    ensures n <= U32_MAX ==> r == n
    ensures n > U32_MAX ==> r == U32_MAX
  {
    if n <= U32_MAX then n else U32_MAX
  }

  /** `u64::try_into::<u8>().unwrap_or(u8::MAX)` */
  function SaturateU8(n: u64): (r: u8)
    ensures n <= U8_MAX ==> r == n
    ensures n > U8_MAX ==> r == U8_MAX
  {
    if n <= U8_MAX then n else U8_MAX
  }

  /** `n as u32`: keeps the low 32 bits. */
  function TruncateU32(n: u64): (r: u32)
    ensures n <= U32_MAX ==> r == n
    ensures exists k: nat :: k <= U32_MAX && n == k * 0x1_0000_0000 + r
  {
    var r := n % 0x1_0000_0000;
    assert n == (n / 0x1_0000_0000) * 0x1_0000_0000 + r;
    r
  }

  /** `n as i32`: keeps the low 32 bits and reads them as two's complement. */
  function TruncateI32(n: u64): (r: i32)
    ensures n < 0x8000_0000 ==> r == n
    ensures r >= 0 ==> r == TruncateU32(n)
    ensures r < 0 ==> r + 0x1_0000_0000 == TruncateU32(n)
  {
    var low := n % 0x1_0000_0000;
    if low < 0x8000_0000 then low else low - 0x1_0000_0000
  }

  /** `u32::checked_mul`: `None` exactly when the product leaves the u32 range. */
  function CheckedMulU32(a: u32, b: u32): (r: Option<u32>)
    ensures r.Some? <==> a * b <= U32_MAX
    ensures r.Some? ==> r.value == a * b
  {
    if a * b <= U32_MAX then Some(a * b) else None
  }

  /** 256 to the power k: the number of distinct k-byte strings. */
  function Pow256(k: nat): (r: nat)
    ensures r >= 1
  {
    if k == 0 then 1 else 256 * Pow256(k - 1)
  }

  lemma Pow256Eight()
    ensures Pow256(8) == U64_MAX + 1
  {
  }

  /** The unsigned number whose big-endian encoding is `b`. */
  function FromBigEndian(b: seq<byte>): (n: nat)
    ensures n < Pow256(|b|)
  {
    if |b| == 0 then 0
    else
      var high := FromBigEndian(b[..|b| - 1]);
      assert high * 256 + b[|b| - 1] < Pow256(|b|) by {
        assert high + 1 <= Pow256(|b| - 1);
        assert (high + 1) * 256 <= Pow256(|b| - 1) * 256;
      }
      high * 256 + b[|b| - 1]
  }

  /** The `len`-byte big-endian encoding of `n`. */
  function ToBigEndian(n: nat, len: nat): (b: seq<byte>)
    requires n < Pow256(len)
    ensures |b| == len
  {
    if len == 0 then []
    else
      assert n / 256 < Pow256(len - 1);
      ToBigEndian(n / 256, len - 1) + [n % 256]
  }

  lemma {:induction false} FromToBigEndian(n: nat, len: nat)
    requires n < Pow256(len)
    ensures FromBigEndian(ToBigEndian(n, len)) == n
  {
    if len > 0 {
      var b := ToBigEndian(n, len);
      assert b[..len - 1] == ToBigEndian(n / 256, len - 1);
      FromToBigEndian(n / 256, len - 1);
    }
  }

  lemma {:induction false} ToFromBigEndian(b: seq<byte>)
    ensures ToBigEndian(FromBigEndian(b), |b|) == b
  {
    if |b| > 0 {
      var n := FromBigEndian(b);
      var high := FromBigEndian(b[..|b| - 1]);
      assert n / 256 == high && n % 256 == b[|b| - 1];
      ToFromBigEndian(b[..|b| - 1]);
      assert b == b[..|b| - 1] + [b[|b| - 1]];
    }
  }

  /** All-zero bytes encode 0. */
  lemma {:induction false} FromBigEndianZeros(k: nat)
    ensures FromBigEndian(seq(k, _ => 0)) == 0
  {
    if k > 0 {
      assert seq(k, _ => 0)[..k - 1] == seq(k - 1, _ => 0);
      FromBigEndianZeros(k - 1);
    }
  }

  /** `u64::to_be_bytes` */
  function U64ToBeBytes(n: u64): (b: seq<byte>)
    ensures |b| == 8
    ensures FromBigEndian(b) == n
  {
    Pow256Eight();
    FromToBigEndian(n, 8);
    ToBigEndian(n, 8)
  }

  /** `u64::from_be_bytes` on an 8-byte array. */
  function U64FromBeBytes(b: seq<byte>): (n: u64)
    requires |b| == 8
    ensures U64ToBeBytes(n) == b
  {
    Pow256Eight();
    ToFromBigEndian(b);
    FromBigEndian(b)
  }

  /** Two 8-byte strings with the same big-endian value are equal. */
  lemma U64FromBeBytesInjective(a: seq<byte>, b: seq<byte>)
    requires |a| == 8 && |b| == 8
    requires U64FromBeBytes(a) == U64FromBeBytes(b)
    ensures a == b
  {
  }

  predicate IsAscii(s: string)
  {
    forall i :: 0 <= i < |s| ==> s[i] as int < 0x80
  }

  /** The UTF-8 bytes of an ASCII string (one byte per character). */
  function AsciiBytes(s: string): (b: seq<byte>)
    requires IsAscii(s)
    ensures |b| == |s|
  {
    seq(|s|, i requires 0 <= i < |s| => s[i] as int)
  }

  /**
   * Bytes read one character per byte (Latin-1). On ASCII text it agrees with
   * UTF-8 decoding, and a byte of 0x80 or above never becomes an ASCII
   * character, so a check for ASCII characters rejects it either way.
   */
  function Latin1Chars(b: seq<byte>): (s: string)
    ensures |s| == |b|
  {
    seq(|b|, i requires 0 <= i < |b| => b[i] as char)
  }

  lemma AsciiBytesRoundTrip(s: string)
    requires IsAscii(s)
    ensures Latin1Chars(AsciiBytes(s)) == s
  {
  }

  lemma AsciiBytesInjective(s: string, t: string)
    requires IsAscii(s) && IsAscii(t)
    requires AsciiBytes(s) == AsciiBytes(t)
    ensures s == t
  {
    AsciiBytesRoundTrip(s);
    AsciiBytesRoundTrip(t);
  }
}

=== FILE: coin.dfy ===
/**
 * `UnsignedCoin`: a denomination and a 256-bit unsigned amount, with its text
 * form (`"<amount><denom>"`), its protobuf forms, the pagination key it is
 * listed under, and the `Uint256Proto` wrapper.
 */
module Coin {
  import opened Wrappers
  import opened Bytes
  import Decimal

  const UINT256_BOUND: nat := 0x1_0000_0000_0000_0000_0000_0000_0000_0000_0000_0000_0000_0000_0000_0000_0000_0000

  type Uint256 = n: nat | n < UINT256_BOUND

  predicate IsAsciiLetter(c: char)
  {
    'a' <= c <= 'z' || 'A' <= c <= 'Z'
  }

  predicate IsDenomChar(c: char)
  {
    IsAsciiLetter(c) || Decimal.IsDigit(c) || c == '/' || c == ':' || c == '.' || c == '_' || c == '-'
  }

  /** A denomination: a letter followed by 2 to 127 letters, digits or `/:._-`. */
  predicate ValidDenom(s: string)
  {
    && 3 <= |s| <= 128
    && IsAsciiLetter(s[0])
    && forall i :: 1 <= i < |s| ==> IsDenomChar(s[i])
  }

  type Denom = s: string | ValidDenom(s) witness "atom"

  datatype UnsignedCoin = UnsignedCoin(denom: Denom, amount: Uint256)

  /** `CoinError::Uint` and `CoinError::Denom`; the reason is the inner error's text. */
  datatype CoinError = InvalidUint(reason: string) | InvalidDenom(reason: string)

  /** The protobuf `Coin` (both the core and the cosmos-sdk-proto one): two strings. */
  datatype ProtoCoin = ProtoCoin(denom: string, amount: string)

  /** The core `IntProto`: an integer as decimal text. */
  datatype IntProto = IntProto(digits: string)

  datatype Uint256Proto = Uint256Proto(uint: Uint256)

  /**
   * `char::is_numeric`: the ASCII digits and other Unicode numeric characters
   * (here the Latin-1 superscripts and vulgar fractions and the Arabic-Indic
   * digits stand for the rest of that class).
   */
  predicate IsNumeric(c: char)
  {
    var n := c as int;
    || Decimal.IsDigit(c)
    || n == 0xB2 || n == 0xB3 || n == 0xB9
    || (0xBC <= n <= 0xBE)
    || (0x0660 <= n <= 0x0669)
  }

  /**
   * Placeholder reasons for a failed `Uint256::from_str`, worded like the core
   * integer parse errors; the parser's own messages are not part of this model.
   */
  const INVALID_DIGIT: string := "invalid digit found in string"
  const TOO_LARGE: string := "number too large to fit in target type"

  /** `Uint256::from_str`: non-empty decimal digits whose value is below 2^256. */
  function ParseUint256(s: string): (r: Result<Uint256, CoinError>)
    ensures r.Ok? <==> Decimal.Parse(s).Some? && Decimal.Parse(s).value < UINT256_BOUND
    ensures r.Ok? ==> r.value == Decimal.Parse(s).value
    ensures r.Err? ==> r.error.InvalidUint?
  {
    var parsed := Decimal.Parse(s);
    if parsed.None? then Err(InvalidUint(INVALID_DIGIT))
    else if parsed.value < UINT256_BOUND then Ok(parsed.value)
    else Err(InvalidUint(TOO_LARGE))
  }

  /** `Denom::try_from` / `str::parse::<Denom>` */
  function ParseDenom(s: string): (r: Result<Denom, CoinError>)
    ensures r.Ok? <==> ValidDenom(s)
    ensures r.Ok? ==> r.value == s
    ensures r.Err? ==> r.error.InvalidDenom?
  {
    if ValidDenom(s) then Ok(s) else Err(InvalidDenom("invalid denomination"))
  }

  /** Index of the first non-numeric character, or the length when there is none. */
  function AmountEnd(s: string): (i: nat)
    ensures i <= |s|
    ensures forall j :: 0 <= j < i ==> IsNumeric(s[j])
    ensures i < |s| ==> !IsNumeric(s[i])
  {
    if |s| == 0 || !IsNumeric(s[0]) then 0 else 1 + AmountEnd(s[1..])
  }

  /**
   * `UnsignedCoin::from_str`: the amount is the numeric prefix, the denom is the
   * rest; the amount is parsed first.
   */
  function FromStr(s: string): (r: Result<UnsignedCoin, CoinError>)
  {
    var i := AmountEnd(s);
    var amount :- ParseUint256(s[..i]);
    var denom :- ParseDenom(s[i..]);
    Ok(UnsignedCoin(denom, amount))
  }

  /** `Display`: the amount in decimal immediately followed by the denom. */
  function ToString(c: UnsignedCoin): (s: string)
    ensures |s| > |c.denom|
    ensures Decimal.Canonical(s[..|s| - |c.denom|])
    ensures s[|s| - |c.denom|..] == c.denom
  {
    Decimal.Print(c.amount) + c.denom
  }

  /** The numeric prefix `FromStr` splits off is exactly the printed amount. */
  lemma AmountEndOfPrinted(digits: string, denom: Denom)
    requires Decimal.AllDigits(digits)
    ensures AmountEnd(digits + denom) == |digits|
  {
    var s := digits + denom;
    assert forall j :: 0 <= j < |digits| ==> s[j] == digits[j];
    assert s[|digits|] == denom[0];
  }

  /** Printing a coin and parsing the text gives the coin back. */
  lemma FromStrToString(c: UnsignedCoin)
    ensures FromStr(ToString(c)) == Ok(c)
  {
    var digits := Decimal.Print(c.amount);
    var s := ToString(c);
    AmountEndOfPrinted(digits, c.denom);
    assert s[..|digits|] == digits;
    assert s[|digits|..] == c.denom;
    Decimal.ParsePrint(c.amount);
  }

  /**
   * Parsing splits at the first non-numeric character; a bad amount is reported
   * as `Uint` whatever the denom, and only a good amount lets a bad denom be
   * reported as `Denom`.
   */
  lemma FromStrOutcome(s: string)
    ensures var i := AmountEnd(s);
      && (ParseUint256(s[..i]).Err? ==> FromStr(s) == Err(ParseUint256(s[..i]).error) && FromStr(s).error.InvalidUint?)
      && (ParseUint256(s[..i]).Ok? && !ValidDenom(s[i..]) ==> FromStr(s).Err? && FromStr(s).error.InvalidDenom?)
      && (FromStr(s).Ok? <==> ParseUint256(s[..i]).Ok? && ValidDenom(s[i..]))
      && (FromStr(s).Ok? ==> FromStr(s).value == UnsignedCoin(s[i..], ParseUint256(s[..i]).value))
  {
  }

  /** An all-numeric string has an empty denom part, which is never a denom. */
  lemma FromStrAllNumeric(s: string)
    requires forall j :: 0 <= j < |s| ==> IsNumeric(s[j])
    ensures FromStr(s).Err?
  {
    assert AmountEnd(s) == |s|;
  }

  /** `From<UnsignedCoin>` for the core and the cosmos-sdk-proto `Coin`. */
  function ToProto(c: UnsignedCoin): (p: ProtoCoin)
    ensures p.denom == c.denom
    ensures Decimal.Canonical(p.amount) && Decimal.Value(p.amount) == c.amount
  {
    ProtoCoin(c.denom, Decimal.Print(c.amount))
  }

  /** `TryFrom<Coin>` for the core and the cosmos-sdk-proto `Coin`: denom first, then amount. */
  function FromProto(p: ProtoCoin): (r: Result<UnsignedCoin, CoinError>)
    ensures !ValidDenom(p.denom) ==> r.Err? && r.error.InvalidDenom?
    ensures ValidDenom(p.denom) && ParseUint256(p.amount).Err? ==> r.Err? && r.error.InvalidUint?
    ensures r.Ok? <==> ValidDenom(p.denom) && ParseUint256(p.amount).Ok?
    ensures r.Ok? ==> r.value.denom == p.denom && r.value.amount == ParseUint256(p.amount).value
  {
    var denom :- ParseDenom(p.denom);
    var amount :- ParseUint256(p.amount);
    Ok(UnsignedCoin(denom, amount))
  }

  lemma ProtoRoundTrip(c: UnsignedCoin)
    ensures FromProto(ToProto(c)) == Ok(c)
  {
    Decimal.ParsePrint(c.amount);
  }

  /** The coin list type; its own validation (`UnsignedCoins::new`) is passed in. */
  datatype UnsignedCoins = UnsignedCoins(coins: seq<UnsignedCoin>)

  datatype CoinsError = Coin(cause: CoinError) | Invalid(reason: string)

  /** `From<UnsignedCoins> for Vec<SdkCoin>` */
  function CoinsToProto(cs: UnsignedCoins): (v: seq<ProtoCoin>)
    ensures |v| == |cs.coins|
    ensures forall i :: 0 <= i < |v| ==> FromProto(v[i]) == Ok(cs.coins[i])
  {
    seq(|cs.coins|, i requires 0 <= i < |cs.coins| => ProtoRoundTrip(cs.coins[i]); ToProto(cs.coins[i]))
  }

  /** Converts every element in order, stopping at the first failure. */
  function FromProtoAll(v: seq<ProtoCoin>): (r: Result<seq<UnsignedCoin>, CoinError>)
    ensures r.Ok? <==> forall i :: 0 <= i < |v| ==> FromProto(v[i]).Ok?
    ensures r.Ok? ==> |r.value| == |v| && forall i :: 0 <= i < |v| ==> r.value[i] == FromProto(v[i]).value
    ensures r.Err? ==> exists i :: 0 <= i < |v| && FromProto(v[i]) == Err(r.error)
                                 && forall j :: 0 <= j < i ==> FromProto(v[j]).Ok?
  {
    if |v| == 0 then Ok([])
    else
      var head :- FromProto(v[0]);
      var tail := FromProtoAll(v[1..]);
      if tail.Err? then
        assert forall i :: 1 <= i < |v| ==> v[i] == v[1..][i - 1];
        Err(tail.error)
      else
        assert forall i :: 1 <= i < |v| ==> v[i] == v[1..][i - 1];
        Ok([head] + tail.value)
  }

  /**
   * `TryFrom<Vec<SdkCoin>> for UnsignedCoins`: an element that does not convert
   * fails the whole list before `UnsignedCoins::new` (`validate`) runs.
   */
  function CoinsFromProto(v: seq<ProtoCoin>, validate: seq<UnsignedCoin> -> Result<UnsignedCoins, CoinsError>)
    : (r: Result<UnsignedCoins, CoinsError>)
    ensures (exists i :: 0 <= i < |v| && FromProto(v[i]).Err?) ==> r.Err? && r.error.Coin?
    ensures (exists i :: 0 <= i < |v| && FromProto(v[i]).Err?) ==>
              exists i :: (&& 0 <= i < |v| && FromProto(v[i]).Err? && r == Err(Coin(FromProto(v[i]).error))
                           && (forall j :: 0 <= j < i ==> FromProto(v[j]).Ok?))
    ensures (forall i :: 0 <= i < |v| ==> FromProto(v[i]).Ok?) ==>
              r == validate(seq(|v|, i requires 0 <= i < |v| => FromProto(v[i]).value))
  {
    var coins := FromProtoAll(v);
    if coins.Err? then Err(Coin(coins.error))
    else
      assert coins.value == seq(|v|, i requires 0 <= i < |v| => FromProto(v[i]).value);
      validate(coins.value)
  }

  /** `Uint256Proto` from `IntProto`: a failed parse is a `Uint` error. */
  function FromIntProto(p: IntProto): (r: Result<Uint256Proto, CoinError>)
    ensures r.Ok? <==> ParseUint256(p.digits).Ok?
    ensures r.Ok? ==> r.value.uint == ParseUint256(p.digits).value
    ensures r.Err? ==> r.error.InvalidUint?
  {
    var uint :- ParseUint256(p.digits);
    Ok(Uint256Proto(uint))
  }

  function ToIntProto(u: Uint256Proto): (p: IntProto)
    ensures Decimal.Canonical(p.digits)
  {
    IntProto(Decimal.Print(u.uint))
  }

  lemma IntProtoRoundTrip(u: Uint256Proto)
    ensures FromIntProto(ToIntProto(u)) == Ok(u)
  {
    Decimal.ParsePrint(u.uint);
  }

  /** Canonical decimal text below 2^256 survives the trip the other way too. */
  lemma IntProtoCanonical(p: IntProto)
    requires Decimal.Canonical(p.digits)
    requires FromIntProto(p).Ok?
    ensures ToIntProto(FromIntProto(p).value) == p
  {
    Decimal.PrintParse(p.digits);
  }

  lemma DenomIsAscii(d: Denom)
    ensures IsAscii(d)
  {
  }

  /** The pagination key of a coin: its denom as bytes. */
  function IteratorKey(c: UnsignedCoin): (k: seq<byte>)
    ensures |k| == |c.denom| && Latin1Chars(k) == c.denom
  {
    AsciiBytesRoundTrip(c.denom);
    AsciiBytes(c.denom)
  }

  /** Coins with different denoms never share a pagination key. */
  lemma IteratorKeyInjective(a: UnsignedCoin, b: UnsignedCoin)
    requires IteratorKey(a) == IteratorKey(b)
    ensures a.denom == b.denom
  {
  }
}

=== FILE: decimal.dfy ===
/**
 * Base-ten text for unsigned integers: Rust's `to_string()` on u32/u64/Uint256
 * and the digit-string parsing behind `u64`/`Uint256` `from_str`.
 * The text form is a string of ASCII digits; the byte form is the same text as
 * ASCII bytes, which is what `to_string().into_bytes()` produces.
 */
module Decimal {
  import opened Wrappers
  import opened Bytes

  predicate IsDigit(c: char)
  {
    '0' <= c <= '9'
  }

  predicate AllDigits(s: string)
  {
    forall i :: 0 <= i < |s| ==> IsDigit(s[i])
  }

  /** The number written by a string of digits, most significant first. */
  function Value(s: string): nat
    requires AllDigits(s)
  {
    if |s| == 0 then 0
    else Value(s[..|s| - 1]) * 10 + (s[|s| - 1] as int - '0' as int)
  }

  function DigitChar(d: nat): (c: char)
    requires d < 10
    ensures IsDigit(c)
  {
    ('0' as int + d) as char
  }

  /** Canonical decimal text: no sign, no leading zero except for "0" itself. */
  predicate Canonical(s: string)
  {
    && |s| >= 1
    && AllDigits(s)
    && (s[0] == '0' ==> |s| == 1)
  }

  /** `n.to_string()` */
  function Print(n: nat): (s: string)
    ensures Canonical(s)
    ensures Value(s) == n
  {
    if n < 10 then [DigitChar(n)]
    else
      var high := Print(n / 10);
      var s := high + [DigitChar(n % 10)];
      assert s[..|s| - 1] == high;
      s
  }

  /** Parses a non-empty string of ASCII digits; anything else is rejected. */
  function Parse(s: string): (r: Option<nat>)
    ensures r.Some? <==> |s| >= 1 && AllDigits(s)
    ensures r.Some? ==> r.value == Value(s)
  {
    if |s| >= 1 && AllDigits(s) then Some(Value(s)) else None
  }

  lemma ParsePrint(n: nat)
    ensures Parse(Print(n)) == Some(n)
  {
  }

  lemma {:induction false} ValueBelowPower(s: string)
    requires AllDigits(s)
    ensures |s| >= 1 && s[0] != '0' ==> Value(s) >= Pow10(|s| - 1)
    ensures Value(s) < Pow10(|s|)
  {
    if |s| > 0 {
      var high := s[..|s| - 1];
      ValueBelowPower(high);
      if |s| >= 2 && s[0] != '0' {
        assert high[0] == s[0];
      }
    }
  }

  function Pow10(k: nat): (r: nat)
    ensures r >= 1
  {
    if k == 0 then 1 else 10 * Pow10(k - 1)
  }

  /** Canonical text is the only text `Print` produces for its value. */
  lemma {:induction false} PrintParse(s: string)
    requires Canonical(s)
    ensures Print(Value(s)) == s
    decreases |s|
  {
    if |s| > 1 {
      var high := s[..|s| - 1];
      var d := s[|s| - 1] as int - '0' as int;
      assert high[0] == s[0];
      ValueBelowPower(high);
      assert Value(high) >= 1;
      assert Value(s) / 10 == Value(high) && Value(s) % 10 == d;
      PrintParse(high);
      assert s == high + [DigitChar(d)];
    }
  }

  /** `n.to_string().into_bytes()` */
  function PrintBytes(n: nat): (b: seq<byte>)
    ensures |b| >= 1
  {
    AsciiBytes(Print(n))
  }

  /** Parses bytes as decimal text, failing on any non-digit byte. */
  function ParseBytes(b: seq<byte>): (r: Option<nat>)
    ensures r.Some? ==> |b| >= 1
  {
    Parse(Latin1Chars(b))
  }

  lemma ParseBytesPrintBytes(n: nat)
    ensures ParseBytes(PrintBytes(n)) == Some(n)
  {
    AsciiBytesRoundTrip(Print(n));
  }

  /** The bytes of `to_string()` are canonical decimal text that parses back to the number. */
  lemma PrintBytesCanonical(n: nat)
    ensures Canonical(Latin1Chars(PrintBytes(n))) && ParseBytes(PrintBytes(n)) == Some(n)
  {
    AsciiBytesRoundTrip(Print(n));
  }

  /** A decimal `u64` parser: digits only, and the value must fit in 64 bits. */
  function ParseU64Bytes(b: seq<byte>): (r: Option<u64>)
    ensures r.Some? <==> ParseBytes(b).Some? && ParseBytes(b).value <= U64_MAX
    ensures r.Some? ==> r.value == ParseBytes(b).value
  {
    match ParseBytes(b)
    case Some(n) => if n <= U64_MAX then Some(n) else None
    case None => None
  }

  lemma ParseU64PrintBytes(n: u64)
    ensures ParseU64Bytes(PrintBytes(n)) == Some(n)
  {
    ParseBytesPrintBytes(n);
  }

  /** No decimal parse succeeds on empty input: a missing value never parses. */
  lemma ParseU64Empty()
    ensures ParseU64Bytes([]) == None
  {
  }
}

=== FILE: kv_store.dfy ===
/**
 * One module's key/value namespace as the genesis code sees it: entries kept in
 * ascending byte order of their keys, which is the order a range scan yields.
 * The multi-store behind it (prefixing, versions, commits) is not modelled.
 */
module KvStore {
  import opened Wrappers
  import opened Bytes

  /** Byte-wise lexicographic order; a proper prefix comes first. */
  predicate LexLess(a: seq<byte>, b: seq<byte>)
    decreases |a|
  {
    if |a| == 0 then |b| > 0
    else |b| > 0 && (a[0] < b[0] || (a[0] == b[0] && LexLess(a[1..], b[1..])))
  }

  lemma {:induction false} LexLessIrreflexive(a: seq<byte>)
    ensures !LexLess(a, a)
    decreases |a|
  {
    if |a| > 0 {
      LexLessIrreflexive(a[1..]);
    }
  }

  lemma {:induction false} LexLessTransitive(a: seq<byte>, b: seq<byte>, c: seq<byte>)
    requires LexLess(a, b) && LexLess(b, c)
    ensures LexLess(a, c)
    decreases |a|
  {
    if |a| > 0 && a[0] == b[0] && b[0] == c[0] {
      LexLessTransitive(a[1..], b[1..], c[1..]);
    }
  }

  lemma {:induction false} LexLessTotal(a: seq<byte>, b: seq<byte>)
    requires a != b
    ensures LexLess(a, b) || LexLess(b, a)
    decreases |a|
  {
    if |a| > 0 && |b| > 0 && a[0] == b[0] {
      assert a == [a[0]] + a[1..] && b == [b[0]] + b[1..];
      LexLessTotal(a[1..], b[1..]);
    }
  }

  type Entry = (seq<byte>, seq<byte>)

  /** Keys strictly ascending: each key appears once, in scan order. */
  ghost predicate Sorted(es: seq<Entry>)
  {
    forall i, j :: 0 <= i < j < |es| ==> LexLess(es[i].0, es[j].0)
  }

  type Store = es: seq<Entry> | Sorted(es) witness []

  ghost predicate HasKey(es: seq<Entry>, k: seq<byte>)
  {
    exists i :: 0 <= i < |es| && es[i].0 == k
  }

  /** `get(key)` */
  function Get(s: Store, k: seq<byte>): (r: Option<seq<byte>>)
    ensures r.Some? <==> HasKey(s, k)
    ensures r.Some? ==> (k, r.value) in s
  {
    if |s| == 0 then None
    else if s[0].0 == k then Some(s[0].1)
    else
      var r := Get(s[1..], k);
      assert HasKey(s, k) ==> HasKey(s[1..], k) by {
        if HasKey(s, k) {
          var i :| 0 <= i < |s| && s[i].0 == k;
          assert s[1..][i - 1].0 == k;
        }
      }
      r
  }

  /** A key below the first key of a store is below every key in it. */
  lemma BelowFirstBelowAll(s: Store, k: seq<byte>)
    requires |s| > 0 && LexLess(k, s[0].0)
    ensures forall j :: 0 <= j < |s| ==> LexLess(k, s[j].0)
  {
    forall j | 0 < j < |s|
      ensures LexLess(k, s[j].0)
    {
      LexLessTransitive(k, s[0].0, s[j].0);
    }
  }

  /** Keys of `t` that come from the tail of `s`, or equal a key above `s[0]`, stay above `s[0]`. */
  lemma AboveFirst(s: Store, k: seq<byte>, t: seq<Entry>)
    requires |s| > 0 && LexLess(s[0].0, k)
    requires forall i :: 0 <= i < |t| ==> t[i].0 == k || HasKey(s[1..], t[i].0)
    ensures forall i :: 0 <= i < |t| ==> LexLess(s[0].0, t[i].0)
    ensures forall i :: 0 <= i < |t| ==> t[i].0 == k || HasKey(s, t[i].0)
  {
    forall i | 0 <= i < |t| && t[i].0 != k
      ensures LexLess(s[0].0, t[i].0) && HasKey(s, t[i].0)
    {
      var j :| 0 <= j < |s[1..]| && s[1..][j].0 == t[i].0;
      assert s[j + 1].0 == t[i].0;
    }
  }

  /** `set(key, value)`: inserts or replaces, keeping the keys in order. */
  function Set(s: Store, k: seq<byte>, v: seq<byte>): (r: Store)
    ensures forall i :: 0 <= i < |r| ==> r[i].0 == k || HasKey(s, r[i].0)
    ensures Get(r, k) == Some(v)
    ensures forall k' :: k' != k ==> Get(r, k') == Get(s, k')
  {
    if |s| == 0 then [(k, v)]
    else if s[0].0 == k then
      var r := [(k, v)] + s[1..];
      assert r[1..] == s[1..];
      r
    else if LexLess(k, s[0].0) then
      BelowFirstBelowAll(s, k);
      var r := [(k, v)] + s;
      assert r[1..] == s;
      r
    else
      LexLessTotal(k, s[0].0);
      var t := Set(s[1..], k, v);
      AboveFirst(s, k, t);
      var r := [s[0]] + t;
      assert r[1..] == t;
      r
  }

  predicate IsPrefix(prefix: seq<byte>, k: seq<byte>)
  {
    |prefix| <= |k| && k[..|prefix|] == prefix
  }

  /**
   * The entries whose key starts with `prefix`, in ascending key order:
   * what a range scan over a prefix store yields.
   */
  function ScanPrefix(s: Store, prefix: seq<byte>): (r: Store)
    ensures forall e :: e in r <==> e in s && IsPrefix(prefix, e.0)
  {
    if |s| == 0 then []
    else
      var t := ScanPrefix(s[1..], prefix);
      assert forall e :: e in s <==> e == s[0] || e in s[1..];
      if IsPrefix(prefix, s[0].0) then
        assert forall i :: 0 <= i < |t| ==> LexLess(s[0].0, t[i].0) by {
          forall i | 0 <= i < |t|
            ensures LexLess(s[0].0, t[i].0)
          {
            assert t[i] in s[1..];
            var j :| 0 <= j < |s[1..]| && s[1..][j] == t[i];
            assert s[j + 1] == t[i];
          }
        }
        var r := [s[0]] + t;
        assert r[1..] == t;
        r
      else t
  }

  /** A non-empty sequence holds its first element. */
  lemma FirstIsMember(b: seq<Entry>)
    ensures |b| > 0 ==> b[0] in b
  {
  }

  /**
   * A store is determined by its entries: two stores holding the same entries
   * list them in the same order.
   */
  lemma {:induction false} SameEntriesSameStore(a: Store, b: Store)
    requires forall e :: e in a <==> e in b
    ensures a == b
    decreases |a|
  {
    if |a| > 0 {
      assert a[0] in a;
      assert |b| > 0;
      assert b[0] in b;
      assert a[0] == b[0] by {
        var i :| 0 <= i < |a| && a[i] == b[0];
        var j :| 0 <= j < |b| && b[j] == a[0];
        if i > 0 && j > 0 {
          LexLessTransitive(a[0].0, a[i].0, a[0].0);
          LexLessIrreflexive(a[0].0);
        }
      }
      forall e
        ensures e in a[1..] <==> e in b[1..]
      {
        if e in a[1..] {
          var k :| 0 <= k < |a[1..]| && a[1..][k] == e;
          assert LexLess(a[0].0, a[k + 1].0);
          LexLessIrreflexive(a[0].0);
          assert e in b;
          var m :| 0 <= m < |b| && b[m] == e;
          assert m > 0;
          assert b[1..][m - 1] == e;
        }
        if e in b[1..] {
          var k :| 0 <= k < |b[1..]| && b[1..][k] == e;
          assert LexLess(b[0].0, b[k + 1].0);
          LexLessIrreflexive(b[0].0);
          assert e in a;
          var m :| 0 <= m < |a| && a[m] == e;
          assert m > 0;
          assert a[1..][m - 1] == e;
        }
      }
      SameEntriesSameStore(a[1..], b[1..]);
      assert a == [a[0]] + a[1..] && b == [b[0]] + b[1..];
    } else {
      FirstIsMember(b);
    }
  }

  /** The values of a sequence of entries, in order. */
  function Values(es: seq<Entry>): (vs: seq<seq<byte>>)
    ensures |vs| == |es| && forall i :: 0 <= i < |es| ==> vs[i] == es[i].1
  {
    seq(|es|, i requires 0 <= i < |es| => es[i].1)
  }
}

=== FILE: pagination_request.dfy ===
/**
 * Pagination requests: the node-side `PaginationRequest` (`Key | Offset` plus a
 * u8 limit), the internal `Pagination` it turns into, and the two wire forms of
 * `PageRequest` (the core protobuf type and the cosmos-sdk-proto one).
 */
module PaginationRequest {
  import opened Wrappers
  import opened Bytes

  /** The page size used when a query carries no pagination. */
  const QUERY_DEFAULT_LIMIT: u8 := 100

  /** `Vec1<u8>`: a byte string with at least one element. */
  type NonEmptyBytes = s: seq<byte> | |s| >= 1 witness [0]

  datatype PaginationKind =
    | Key(key: NonEmptyBytes)
    | Offset(offset: u32)

  datatype PaginationRequest = PaginationRequest(kind: PaginationKind, limit: u8)

  /** The internal cursor the query layer consumes (`extensions::pagination::Pagination`). */
  datatype Pagination =
    | ByKey(key: NonEmptyBytes, limit: usize)
    | ByOffset(offset: usize, limit: usize)

  /** Wire shape shared by the core `PageRequest` and the cosmos-sdk-proto `PageRequest`. */
  datatype PageRequest = PageRequest(key: seq<byte>, offset: u64, limit: u64, countTotal: bool, reverse: bool)

  datatype SdkPageRequest = SdkPageRequest(key: seq<byte>, offset: u64, limit: u64, countTotal: bool, reverse: bool)

  /** `ProtobufError`; no conversion below ever produces one. */
  datatype ProtobufError = ProtobufError(reason: string)

  /**
   * `From<PaginationRequest> for Pagination`: a page number times the page size,
   * computed in u32, becomes the element offset; if that product overflows u32
   * the offset is `usize::MAX`.
   */
  function ToPagination(req: PaginationRequest): (p: Pagination)
    ensures p.limit == req.limit
    ensures req.kind.Key? <==> p.ByKey?
    ensures p.ByKey? ==> p.key == req.kind.key
    ensures p.ByOffset? && req.kind.offset * req.limit <= U32_MAX ==> p.offset == req.kind.offset * req.limit
    ensures p.ByOffset? && req.kind.offset * req.limit > U32_MAX ==> p.offset == USIZE_MAX
  {
    match req.kind
    case Key(key) => ByKey(key, req.limit)
    case Offset(offset) =>
      var product := CheckedMulU32(offset, req.limit);
      ByOffset(if product.Some? then product.value else USIZE_MAX, req.limit)
  }

  /**
   * `From<PageRequest> for PaginationRequest`: a non-empty key wins over the
   * offset; otherwise the u64 offset saturates to u32. The u64 limit saturates
   * to u8, and `count_total`/`reverse` are dropped.
   */
  function FromPageRequest(p: PageRequest): (r: PaginationRequest)
    ensures |p.key| > 0 <==> r.kind.Key?
    ensures r.kind.Key? ==> r.kind.key == p.key
    ensures r.kind.Offset? ==> r.kind.offset == if p.offset <= U32_MAX then p.offset else U32_MAX
    ensures r.limit == if p.limit <= U8_MAX then p.limit else U8_MAX
  {
    var kind := if |p.key| > 0 then Key(p.key) else Offset(SaturateU32(p.offset));
    PaginationRequest(kind, SaturateU8(p.limit))
  }

  /** `From<PaginationRequest> for PageRequest`. */
  function ToPageRequest(r: PaginationRequest): (p: PageRequest)
    ensures !p.countTotal && !p.reverse
    ensures p.limit == r.limit
    ensures r.kind.Key? ==> p.key == r.kind.key && p.offset == 0
    ensures r.kind.Offset? ==> p.key == [] && p.offset == r.kind.offset
  {
    match r.kind
    case Key(key) => PageRequest(key, 0, r.limit, false, false)
    case Offset(offset) => PageRequest([], offset, r.limit, false, false)
  }

  /** Every request survives a trip through the wire form. */
  lemma PageRequestRoundTrip(r: PaginationRequest)
    ensures FromPageRequest(ToPageRequest(r)) == r
  {
  }

  /**
   * Going the other way loses information (the offset next to a key, oversized
   * values, the two flags), but only once: a wire request that has been through
   * the node form is a fixed point.
   */
  lemma PageRequestNormalises(p: PageRequest)
    ensures ToPageRequest(FromPageRequest(p)) == ToPageRequest(FromPageRequest(ToPageRequest(FromPageRequest(p))))
    ensures ToPageRequest(FromPageRequest(p)) == p <==>
              && !p.countTotal && !p.reverse && p.limit <= U8_MAX
              && (if |p.key| > 0 then p.offset == 0 else p.offset <= U32_MAX)
  {
    PageRequestRoundTrip(FromPageRequest(p));
  }

  /** `TryFrom<SdkPageRequest> for PaginationRequest`: copies the fields into the core type. */
  function FromSdkPageRequest(s: SdkPageRequest): (r: Result<PaginationRequest, ProtobufError>)
    ensures r.Ok?
    ensures r.value == FromPageRequest(PageRequest(s.key, s.offset, s.limit, s.countTotal, s.reverse))
  {
    Ok(FromPageRequest(PageRequest(s.key, s.offset, s.limit, s.countTotal, s.reverse)))
  }

  /** `From<PaginationRequest> for SdkPageRequest`: through the core type. */
  function ToSdkPageRequest(r: PaginationRequest): (s: SdkPageRequest)
    ensures r.kind.Key? ==> s.key == r.kind.key && s.offset == 0
    ensures r.kind.Offset? ==> s.key == [] && s.offset == r.kind.offset
    ensures s.limit == r.limit && !s.countTotal && !s.reverse
  {
    var core := ToPageRequest(r);
    SdkPageRequest(core.key, core.offset, core.limit, core.countTotal, core.reverse)
  }

  lemma SdkPageRequestRoundTrip(r: PaginationRequest)
    ensures FromSdkPageRequest(ToSdkPageRequest(r)) == Ok(r)
  {
    PageRequestRoundTrip(r);
  }
}

=== FILE: pagination_response.dfy ===
/**
 * Pagination responses: `PaginationResponse { next_key, total }` and its
 * conversions to the core and cosmos-sdk-proto `PageResponse` wire types.
 */
module PaginationResponse {
  import opened Wrappers
  import opened Bytes
  import PaginationRequest

  datatype PaginationResponse = PaginationResponse(nextKey: seq<byte>, total: u64)

  /** The core protobuf `PageResponse`. */
  datatype PageResponse = PageResponse(nextKey: seq<byte>, total: u64)

  /** The cosmos-sdk-proto `PageResponse`. */
  datatype SdkPageResponse = SdkPageResponse(nextKey: seq<byte>, total: u64)

  /**
   * What a paginated scan reports: how many elements it saw and the element the
   * next page starts at, if any (`extensions::pagination::PaginationResultElement`).
   */
  datatype ResultElement<T> = ResultElement(total: usize, next: Option<T>)

  /** `PaginationResponse::new(total, key)`; usize and u64 have the same width here. */
  function New(total: usize, key: seq<byte>): (r: PaginationResponse)
    ensures r.nextKey == key && r.total == total
  {
    PaginationResponse(key, total)
  }

  function FromPageResponse(p: PageResponse): (r: PaginationResponse)
    ensures r.nextKey == p.nextKey && r.total == p.total
  {
    PaginationResponse(p.nextKey, p.total)
  }

  function ToPageResponse(r: PaginationResponse): (p: PageResponse)
    ensures p.nextKey == r.nextKey && p.total == r.total
  {
    PageResponse(r.nextKey, r.total)
  }

  lemma PageResponseInverse(r: PaginationResponse, p: PageResponse)
    ensures FromPageResponse(ToPageResponse(r)) == r
    ensures ToPageResponse(FromPageResponse(p)) == p
  {
  }

  /**
   * `From<PaginationResultElement<T>>`: the next key is the pagination key of
   * the next element, or empty when the scan reached the end.
   */
  function FromResultElement<T>(e: ResultElement<T>, iteratorKey: T -> seq<byte>): (r: PaginationResponse)
    ensures r.total == e.total
    ensures e.next.None? ==> r.nextKey == []
    ensures e.next.Some? ==> r.nextKey == iteratorKey(e.next.value)
  {
    PaginationResponse(if e.next.Some? then iteratorKey(e.next.value) else [], e.total)
  }

  /** `TryFrom<SdkPageResponse>`: never fails. */
  function FromSdkPageResponse(s: SdkPageResponse): (r: Result<PaginationResponse, PaginationRequest.ProtobufError>)
    ensures r.Ok? && r.value.nextKey == s.nextKey && r.value.total == s.total
  {
    Ok(PaginationResponse(s.nextKey, s.total))
  }

  function ToSdkPageResponse(r: PaginationResponse): (s: SdkPageResponse)
    ensures s.nextKey == r.nextKey && s.total == r.total
  {
    SdkPageResponse(r.nextKey, r.total)
  }

  lemma SdkPageResponseInverse(r: PaginationResponse, s: SdkPageResponse)
    ensures FromSdkPageResponse(ToSdkPageResponse(r)) == Ok(r)
    ensures FromSdkPageResponse(s).Ok? && ToSdkPageResponse(FromSdkPageResponse(s).value) == s
  {
  }
}

=== FILE: wasm_engine.dfy ===
/**
 * `CosmwasmEngine`: the code-id bookkeeping in front of the contract cache.
 * The cache itself (compilation, instances, contract calls) is an oracle: its
 * answers are parameters. What the engine decides is how a checksum becomes a
 * numeric code id, and how ids and contract addresses are looked up.
 */
module WasmEngine {
  import opened Wrappers
  import opened Bytes
  import opened WasmError

  /** `cosmwasm_vm::Checksum`: 32 bytes. */
  type Checksum = Bytes32

  datatype Engine = Engine(codeMap: map<u64, Checksum>)

  /**
   * Which contract entry point the cache is asked to run, with the sender of
   * the mock `MessageInfo` where the entry point takes one: instantiation is
   * sent by "creator", execution by "caller", and a query carries no info.
   */
  datatype EntryPoint = InstantiateCall(sender: string) | ExecuteCall(sender: string) | QueryCall

  const CREATOR: string := "creator"
  const CALLER: string := "caller"

  /** The cache running a contract: checksum, entry point and message to an answer. */
  type Runner = (Checksum, EntryPoint, seq<byte>) -> Result<seq<byte>, VmError>

  /** `CosmwasmEngine::new`: no code known yet. */
  function NewEngine(): (e: Engine)
    ensures |e.codeMap| == 0
  {
    Engine(map[])
  }

  /** The id of a checksum: its first 8 bytes read as a big-endian u64. */
  function CodeId(c: Checksum): (id: u64)
    ensures U64ToBeBytes(id) == c[..8]
  {
    U64FromBeBytes(c[..8])
  }

  /** `VmError::cache_err(msg)` */
  function CacheErr(msg: string): VmError
  {
    VmError("Cache error: " + msg)
  }

  /**
   * `store_code`, given what the cache answered for the blob: on success the
   * id is derived from the checksum and the map entry for that id is set to the
   * full checksum (replacing any entry with the same id); on failure nothing
   * changes.
   */
  function StoreCode(e: Engine, cacheAnswer: Result<Checksum, VmError>): (r: (Engine, Result<u64, VmError>))
    ensures cacheAnswer.Err? ==> r.0 == e && r.1 == Err(cacheAnswer.error)
    ensures cacheAnswer.Ok? ==> r.1.Ok? && U64ToBeBytes(r.1.value) == cacheAnswer.value[..8]
    ensures cacheAnswer.Ok? ==> r.0.codeMap.Keys == e.codeMap.Keys + {r.1.value}
    ensures cacheAnswer.Ok? ==> r.0.codeMap[r.1.value] == cacheAnswer.value
    ensures cacheAnswer.Ok? ==> forall id :: id in e.codeMap && id != r.1.value ==> r.0.codeMap[id] == e.codeMap[id]
  {
    match cacheAnswer
    case Err(err) => (e, Err(err))
    case Ok(checksum) =>
      var id := CodeId(checksum);
      (Engine(e.codeMap[id := checksum]), Ok(id))
  }

  /**
   * `instantiate`: an id the map does not know fails before any instance is
   * requested; otherwise the cache runs the contract for the mapped checksum.
   */
  function Instantiate(e: Engine, codeId: u64, msg: seq<byte>,
                       run: Runner): (r: Result<seq<byte>, VmError>)
    ensures codeId !in e.codeMap ==> r == Err(CacheErr("unknown code id"))
    ensures codeId in e.codeMap ==> r == run(e.codeMap[codeId], InstantiateCall(CREATOR), msg)
  {
    if codeId in e.codeMap then run(e.codeMap[codeId], InstantiateCall(CREATOR), msg)
    else Err(CacheErr("unknown code id"))
  }

  /**
   * The map key a contract address is looked up under: the address read as a
   * big-endian u64 when it is exactly 8 bytes long, and 0 otherwise.
   */
  function ContractKey(addr: seq<byte>): (k: u64)
    ensures |addr| == 8 ==> U64ToBeBytes(k) == addr
    ensures |addr| != 8 ==> k == 0
  {
    if |addr| == 8 then U64FromBeBytes(addr) else 0
  }

  /** `execute` and `query` share this lookup; a missing key is "unknown contract". */
  function LookupContract(e: Engine, addr: seq<byte>): (r: Result<Checksum, VmError>)
    ensures ContractKey(addr) in e.codeMap <==> r.Ok?
    ensures r.Ok? ==> r.value == e.codeMap[ContractKey(addr)]
    ensures r.Err? ==> r.error == CacheErr("unknown contract")
  {
    var key := ContractKey(addr);
    if key in e.codeMap then Ok(e.codeMap[key]) else Err(CacheErr("unknown contract"))
  }

  /** `execute`: the contract found at the address runs its execute entry point. */
  function Execute(e: Engine, addr: seq<byte>, msg: seq<byte>,
                   run: Runner): (r: Result<seq<byte>, VmError>)
    ensures LookupContract(e, addr).Err? ==> r == Err(CacheErr("unknown contract"))
    ensures LookupContract(e, addr).Ok? ==> r == run(LookupContract(e, addr).value, ExecuteCall(CALLER), msg)
  {
    var checksum :- LookupContract(e, addr);
    run(checksum, ExecuteCall(CALLER), msg)
  }

  /**
   * `query` takes `&self`: it returns only the answer, so the map cannot change.
   * It runs the query entry point, which takes no message info.
   */
  function Query(e: Engine, addr: seq<byte>, msg: seq<byte>,
                 run: Runner): (r: Result<seq<byte>, VmError>)
    ensures LookupContract(e, addr).Err? ==> r == Err(CacheErr("unknown contract"))
    ensures LookupContract(e, addr).Ok? ==> r == run(LookupContract(e, addr).value, QueryCall, msg)
  {
    var checksum :- LookupContract(e, addr);
    run(checksum, QueryCall, msg)
  }

  /** A code id handed out by `store_code` can be instantiated, and runs the stored checksum. */
  lemma StoreThenInstantiate(e: Engine, checksum: Checksum, msg: seq<byte>,
                             run: Runner)
    ensures var (e', id) := StoreCode(e, Ok(checksum));
      id.Ok? && Instantiate(e', id.value, msg, run) == run(checksum, InstantiateCall(CREATOR), msg)
  {
  }

  /** The 8-byte address spelling of a code id reaches that code through `execute`. */
  lemma StoreThenExecute(e: Engine, checksum: Checksum, msg: seq<byte>,
                         run: Runner)
    ensures var (e', id) := StoreCode(e, Ok(checksum));
      id.Ok? && Execute(e', U64ToBeBytes(id.value), msg, run) == run(checksum, ExecuteCall(CALLER), msg)
  {
    var (e', id) := StoreCode(e, Ok(checksum));
    assert ContractKey(U64ToBeBytes(id.value)) == id.value by {
      U64FromBeBytesInjective(U64ToBeBytes(ContractKey(U64ToBeBytes(id.value))), U64ToBeBytes(id.value));
    }
  }

  /**
   * Truncation collides: two different checksums that share their first 8
   * bytes get the same id, and the second one stored replaces the first.
   */
  lemma TruncationCollision(e: Engine, a: Checksum, b: Checksum, msg: seq<byte>,
                            run: Runner)
    requires a[..8] == b[..8]
    ensures var (e1, idA) := StoreCode(e, Ok(a));
      var (e2, idB) := StoreCode(e1, Ok(b));
      && idA == idB
      && Instantiate(e2, idA.value, msg, run) == run(b, InstantiateCall(CREATOR), msg)
  {
  }

  /** Any address that is not 8 bytes long is looked up as the all-zero address. */
  lemma ShortAddressIsKeyZero(e: Engine, addr: seq<byte>)
    requires |addr| != 8
    ensures LookupContract(e, addr) == LookupContract(e, seq(8, _ => 0))
  {
    FromBigEndianZeros(8);
  }
}

=== FILE: wasm_error.dfy ===
/**
 * The wasm module's error type and its conversion into an ABCI transaction
 * error: a fixed non-zero code per variant and the variant's display text.
 */
module WasmError {
  import opened Bytes

  /** `cosmwasm_vm::VmError`, kept as the text it displays as. */
  datatype VmError = VmError(message: string)

  datatype WasmError =
    | InvalidCode(reason: string)
    | Vm(vm: VmError)
    | Serde(detail: string)
    | Gas(detail: string)
    | Keeper(reason: string)

  /** The `#[error(...)]` text of each variant. */
  function Display(e: WasmError): string
  {
    match e
    case InvalidCode(reason) => "invalid contract code: " + reason
    case Vm(vm) => "vm error: " + vm.message
    case Serde(detail) => "serde error: " + detail
    case Gas(detail) => "gas error: " + detail
    case Keeper(reason) => "keeper error: " + reason
  }

  /** The parts of `TxError` this module decides: message and (non-zero u16) code. */
  datatype TxError = TxError(message: string, code: u16)

  type u16 = n: int | 0 <= n < 0x1_0000

  /** `WasmError::into::<MI>()` */
  function IntoTxError(e: WasmError): (t: TxError)
    ensures t.code != 0
    ensures t.message == Display(e)
    ensures e.InvalidCode? <==> t.code == 1
    ensures e.Vm? <==> t.code == 2
    ensures e.Serde? <==> t.code == 3
    ensures e.Gas? <==> t.code == 4
    ensures e.Keeper? <==> t.code == 5
  {
    var code := match e
      case InvalidCode(_) => 1
      case Vm(_) => 2
      case Serde(_) => 3
      case Gas(_) => 4
      case Keeper(_) => 5;
    TxError(Display(e), code)
  }

  /** Different variants never share a code. */
  lemma CodeInjective(a: WasmError, b: WasmError)
    requires IntoTxError(a).code == IntoTxError(b).code
    ensures a.InvalidCode? == b.InvalidCode? && a.Vm? == b.Vm? && a.Serde? == b.Serde?
    ensures a.Gas? == b.Gas? && a.Keeper? == b.Keeper?
  {
  }

  /** The message alone identifies the error: each variant's text starts with a different letter. */
  lemma DisplayInjective(a: WasmError, b: WasmError)
    requires Display(a) == Display(b)
    ensures a == b
  {
    var s := Display(a);
    assert s[0] == Display(b)[0];
    match a
    case InvalidCode(r) =>
      assert b.InvalidCode?;
      assert r == s[|"invalid contract code: "|..] == b.reason;
    case Vm(v) =>
      assert b.Vm?;
      assert v.message == s[|"vm error: "|..] == b.vm.message;
    case Serde(d) =>
      assert b.Serde?;
      assert d == s[|"serde error: "|..] == b.detail;
    case Gas(d) =>
      assert b.Gas?;
      assert d == s[|"gas error: "|..] == b.detail;
    case Keeper(r) =>
      assert b.Keeper?;
      assert r == s[|"keeper error: "|..] == b.reason;
  }
}

=== FILE: wasm_genesis.dfy ===
/**
 * Genesis import and export for the wasm module: code blobs are handed to the
 * keeper's `store_code` in order, and the next code id is kept as 8 big-endian
 * bytes under a sequence key. The keeper's own storage layout (where
 * `store_code` writes, and the two key constants) is not part of this model, so
 * `store_code` and the keys are parameters.
 */
module WasmGenesis {
  import opened Wrappers
  import opened Bytes
  import opened KvStore
  import opened WasmError

  datatype GenesisState = GenesisState(codes: seq<seq<byte>>, nextCodeId: u64)

  /** `NEXT_CODE_ID_KEY` and `CODE_PREFIX` of the keeper. */
  datatype KeyLayout = KeyLayout(nextCodeIdKey: seq<byte>, codePrefix: seq<byte>)

  /** The store after a run of `store_code` calls, and the error that stopped it, if any. */
  datatype StoreRun = StoreRun(store: Store, failure: Option<WasmError>)

  /**
   * The keeper's `store_code` on a context: the store after the call and the
   * error it returned, if any. A failing call keeps whatever it wrote before
   * failing, since `store_code` works on the context in place.
   */
  type StoreCodeFn = (Store, seq<byte>) -> StoreRun

  /**
   * `ss` is the sequence of stores a run went through: it starts at `store`,
   * `codes[i]` was stored without error on `ss[i]` giving `ss[i + 1]`, and `r`
   * is where the run ended: after the last blob with no failure, or at the
   * first blob whose `store_code` failed, with exactly what that call returned.
   */
  ghost predicate StoredInOrder(ss: seq<Store>, store: Store, codes: seq<seq<byte>>, storeCode: StoreCodeFn, r: StoreRun)
  {
    && 1 <= |ss| <= |codes| + 1
    && ss[0] == store
    && (forall i :: 0 <= i < |ss| - 1 ==> storeCode(ss[i], codes[i]) == StoreRun(ss[i + 1], None))
    && var last := ss[|ss| - 1];
       || (|ss| == |codes| + 1 && r == StoreRun(last, None))
       || (|ss| <= |codes| && storeCode(last, codes[|ss| - 1]).failure.Some? && r == storeCode(last, codes[|ss| - 1]))
  }

  /** A successful first call puts its store in front of the trace of the rest. */
  lemma StoredInOrderCons(store: Store, next: Store, codes: seq<seq<byte>>, rest: seq<seq<byte>>,
                          storeCode: StoreCodeFn, r: StoreRun)
    requires |codes| > 0 && rest == codes[1..] && storeCode(store, codes[0]) == StoreRun(next, None)
    requires exists ss :: StoredInOrder(ss, next, rest, storeCode, r)
    ensures exists ss :: StoredInOrder(ss, store, codes, storeCode, r)
  {
    var ss :| StoredInOrder(ss, next, rest, storeCode, r);
    var ss' := [store] + ss;
    assert forall i :: 1 <= i < |codes| ==> codes[i] == rest[i - 1];
    assert forall i :: 1 <= i < |ss'| ==> ss'[i] == ss[i - 1];
    assert StoredInOrder(ss', store, codes, storeCode, r);
  }

  /** Calls `storeCode` on each blob in order and stops at the first error. */
  function StoreAll(store: Store, codes: seq<seq<byte>>, storeCode: StoreCodeFn)
    : (r: StoreRun)
    ensures exists ss :: StoredInOrder(ss, store, codes, storeCode, r)
    ensures (forall s, w :: storeCode(s, w).failure.None?) ==> r.failure.None?
    ensures r.failure.Some? ==> exists i, s :: 0 <= i < |codes| && storeCode(s, codes[i]).failure == r.failure
    ensures |codes| > 0 && storeCode(store, codes[0]).failure.Some? ==> r == storeCode(store, codes[0])
    decreases |codes|
  {
    if |codes| == 0 then
      assert StoredInOrder([store], store, codes, storeCode, StoreRun(store, None));
      StoreRun(store, None)
    else
      var first := storeCode(store, codes[0]);
      if first.failure.Some? then
        assert StoredInOrder([store], store, codes, storeCode, first);
        first
      else
        var r := StoreAll(first.store, codes[1..], storeCode);
        StoredInOrderCons(store, first.store, codes, codes[1..], storeCode, r);
        assert r.failure.Some? ==> exists i, s :: 0 <= i < |codes| && storeCode(s, codes[i]).failure == r.failure by {
          if r.failure.Some? {
            var i, s :| 0 <= i < |codes[1..]| && storeCode(s, codes[1..][i]).failure == r.failure;
            assert codes[i + 1] == codes[1..][i];
          }
        }
        r
  }

  /**
   * `init_genesis`: stores every code; only when all succeed is the sequence key
   * set to `next_code_id`. On failure the store is left as the `store_code`
   * calls left it.
   */
  function InitGenesis(store: Store, layout: KeyLayout, storeCode: StoreCodeFn,
                       genesis: GenesisState): (r: StoreRun)
    ensures var run := StoreAll(store, genesis.codes, storeCode);
      && (run.failure.Some? ==> r == run)
      && (run.failure.None? ==> r.failure.None? && Get(r.store, layout.nextCodeIdKey) == Some(U64ToBeBytes(genesis.nextCodeId)))
      && (run.failure.None? ==> forall k :: k != layout.nextCodeIdKey ==> Get(r.store, k) == Get(run.store, k))
  {
    var run := StoreAll(store, genesis.codes, storeCode);
    if run.failure.Some? then run
    else StoreRun(Set(run.store, layout.nextCodeIdKey, U64ToBeBytes(genesis.nextCodeId)), None)
  }

  /** The sequence value as export reads it: 8 bytes big-endian, else 0. */
  function ReadNextCodeId(store: Store, key: seq<byte>): (n: u64)
    ensures Get(store, key).None? ==> n == 0
    ensures Get(store, key).Some? && |Get(store, key).value| != 8 ==> n == 0
    ensures Get(store, key).Some? && |Get(store, key).value| == 8 ==> U64ToBeBytes(n) == Get(store, key).value
  {
    match Get(store, key)
    case None => 0
    case Some(v) => if |v| == 8 then U64FromBeBytes(v) else 0
  }

  /** `export_genesis`: the values under the code prefix in key order, and the sequence value. */
  function ExportGenesis(store: Store, layout: KeyLayout): (g: GenesisState)
    ensures g.nextCodeId == ReadNextCodeId(store, layout.nextCodeIdKey)
    ensures forall c :: c in g.codes <==> exists k :: (k, c) in store && IsPrefix(layout.codePrefix, k)
    ensures exists es: Store :: (forall e :: e in es <==> e in store && IsPrefix(layout.codePrefix, e.0))
                                && g.codes == Values(es)
  {
    var es := ScanPrefix(store, layout.codePrefix);
    assert forall c :: c in Values(es) <==> exists e :: e in es && e.1 == c by {
      forall c ensures c in Values(es) <==> exists e :: e in es && e.1 == c {
        if c in Values(es) {
          var i :| 0 <= i < |es| && Values(es)[i] == c;
          assert es[i] in es;
        }
        if exists e :: e in es && e.1 == c {
          var e :| e in es && e.1 == c;
          var i :| 0 <= i < |es| && es[i] == e;
          assert Values(es)[i] == c;
        }
      }
    }
    GenesisState(Values(es), ReadNextCodeId(store, layout.nextCodeIdKey))
  }

  /**
   * The exported codes are the code entries' values in ascending key order:
   * any store holding exactly the entries under the code prefix lists them in
   * the exported order.
   */
  lemma ExportInKeyOrder(store: Store, layout: KeyLayout, codeEntries: Store)
    requires forall e :: e in codeEntries <==> e in store && IsPrefix(layout.codePrefix, e.0)
    ensures ExportGenesis(store, layout).codes == Values(codeEntries)
  {
    var g := ExportGenesis(store, layout);
    var es: Store :| (forall e :: e in es <==> e in store && IsPrefix(layout.codePrefix, e.0))
                     && g.codes == Values(es);
    SameEntriesSameStore(es, codeEntries);
  }

  /** Exporting after a successful import yields the imported sequence value. */
  lemma InitExportNextCodeId(store: Store, layout: KeyLayout, storeCode: StoreCodeFn,
                             genesis: GenesisState)
    requires InitGenesis(store, layout, storeCode, genesis).failure.None?
    ensures ExportGenesis(InitGenesis(store, layout, storeCode, genesis).store, layout).nextCodeId == genesis.nextCodeId
  {
    var s := InitGenesis(store, layout, storeCode, genesis).store;
    var v := U64ToBeBytes(genesis.nextCodeId);
    var n := ReadNextCodeId(s, layout.nextCodeIdKey);
    assert U64ToBeBytes(n) == v;
    assert n == FromBigEndian(U64ToBeBytes(n)) == FromBigEndian(v) == genesis.nextCodeId;
  }

  /** A stored sequence value of the wrong width reads as 0. */
  lemma ExportMalformedNextCodeId(store: Store, layout: KeyLayout, v: seq<byte>)
    requires |v| != 8
    ensures ExportGenesis(Set(store, layout.nextCodeIdKey, v), layout).nextCodeId == 0
  {
  }
}

=== FILE: wasm_message.dfy ===
/**
 * The CosmWasm transaction messages of the wasm module: access configuration,
 * the `AccessType` <-> i32 codec, each message's stateless `validate_basic`,
 * and the instantiate admin's `Option` <-> empty-string wire form.
 */
module WasmMessage {
  import opened Wrappers
  import opened Bytes
  import Coin

  /** An account address (the raw bytes behind a bech32 string). */
  datatype AccAddress = AccAddress(bytes: seq<byte>)

  /**
   * The bech32 text form of addresses; the codec itself is not part of this
   * model, so it is a parameter.
   */
  datatype AddressCodec = AddressCodec(toBech32: AccAddress -> string, fromBech32: string -> Result<AccAddress, string>)

  /** What a bech32 codec guarantees: decoding undoes encoding, and encodings are never empty. */
  ghost predicate LawfulAddressCodec(c: AddressCodec)
  {
    forall a :: c.fromBech32(c.toBech32(a)) == Ok(a) && c.toBech32(a) != []
  }

  datatype AccessType = Unspecified | Nobody | Everybody | AnyOfAddresses

  /** The discriminant `as i32` writes. */
  function AccessTypeToI32(t: AccessType): (n: i32)
    ensures n in {0, 1, 3, 4}
    ensures n == 0 <==> t.Unspecified?
    ensures n == 1 <==> t.Nobody?
    ensures n == 3 <==> t.Everybody?
    ensures n == 4 <==> t.AnyOfAddresses?
  {
    match t
    case Unspecified => 0
    case Nobody => 1
    case Everybody => 3
    case AnyOfAddresses => 4
  }

  /** The decoding used for `AccessConfig.permission` and the params: unknown values are `Unspecified`. */
  function AccessTypeFromI32(n: int): (t: AccessType)
    ensures n !in {1, 3, 4} <==> t.Unspecified?
    ensures t.Nobody? <==> n == 1
    ensures t.Everybody? <==> n == 3
    ensures t.AnyOfAddresses? <==> n == 4
  {
    if n == 1 then Nobody
    else if n == 3 then Everybody
    else if n == 4 then AnyOfAddresses
    else Unspecified
  }

  lemma AccessTypeRoundTrip(t: AccessType)
    ensures AccessTypeFromI32(AccessTypeToI32(t)) == t
  {
  }

  /** Decoding is the inverse of encoding exactly on the four discriminants. */
  lemma AccessTypeDecodeEncode(n: i32)
    ensures AccessTypeToI32(AccessTypeFromI32(n)) == n <==> n in {0, 1, 3, 4}
  {
  }

  datatype AccessConfig = AccessConfig(permission: AccessType, addresses: seq<AccAddress>)

  /** `AccessConfig::default()` */
  const DEFAULT_ACCESS_CONFIG := AccessConfig(Unspecified, [])

  /** Validation failures carry only a message (`anyhow::Error`). */
  datatype ValidationError = ValidationError(message: string)

  type Outcome = Result<(), ValidationError>

  function AccessConfigValidateBasic(c: AccessConfig): (r: Outcome)
    ensures r.Ok? <==> (c.permission.Nobody? || c.permission.Everybody? || (c.permission.AnyOfAddresses? && |c.addresses| > 0))
  {
    match c.permission
    case Unspecified => Err(ValidationError("access type unspecified"))
    case Nobody => Ok(())
    case Everybody => Ok(())
    case AnyOfAddresses =>
      if |c.addresses| == 0 then Err(ValidationError("addresses required for AnyOfAddresses")) else Ok(())
  }

  /** The protobuf `AccessConfig`: the permission as its discriminant, addresses as bech32 text. */
  datatype ProtoAccessConfig = ProtoAccessConfig(permission: int, addresses: seq<string>)

  function AccessConfigToProto(c: AccessConfig, codec: AddressCodec): (p: ProtoAccessConfig)
    ensures p.permission == AccessTypeToI32(c.permission)
    ensures |p.addresses| == |c.addresses|
    ensures forall i :: 0 <= i < |p.addresses| ==> p.addresses[i] == codec.toBech32(c.addresses[i])
  {
    ProtoAccessConfig(AccessTypeToI32(c.permission),
                      seq(|c.addresses|, i requires 0 <= i < |c.addresses| => codec.toBech32(c.addresses[i])))
  }

  /** Parses each address in order; the first failure is the result. */
  function ParseAddresses(ss: seq<string>, codec: AddressCodec): (r: Result<seq<AccAddress>, string>)
    ensures r.Ok? <==> forall i :: 0 <= i < |ss| ==> codec.fromBech32(ss[i]).Ok?
    ensures r.Ok? ==> |r.value| == |ss| && forall i :: 0 <= i < |ss| ==> codec.fromBech32(ss[i]) == Ok(r.value[i])
    ensures r.Err? ==> exists i :: && 0 <= i < |ss| && codec.fromBech32(ss[i]) == Err(r.error)
                                   && (forall j :: 0 <= j < i ==> codec.fromBech32(ss[j]).Ok?)
  {
    if |ss| == 0 then Ok([])
    else
      var head :- codec.fromBech32(ss[0]);
      var tail := ParseAddresses(ss[1..], codec);
      assert forall i :: 1 <= i < |ss| ==> ss[i] == ss[1..][i - 1];
      if tail.Err? then Err(tail.error) else Ok([head] + tail.value)
  }

  /** `TryFrom<ProtoAccessConfig>`: fails only on an address that does not decode. */
  function AccessConfigFromProto(p: ProtoAccessConfig, codec: AddressCodec): (r: Result<AccessConfig, string>)
    ensures r.Ok? <==> ParseAddresses(p.addresses, codec).Ok?
    ensures r.Ok? ==> r.value.permission == AccessTypeFromI32(p.permission)
    ensures r.Err? ==> exists i :: && 0 <= i < |p.addresses| && codec.fromBech32(p.addresses[i]) == Err(r.error)
                                   && (forall j :: 0 <= j < i ==> codec.fromBech32(p.addresses[j]).Ok?)
    ensures r.Ok? ==> |r.value.addresses| == |p.addresses|
                      && forall i :: 0 <= i < |p.addresses| ==> codec.fromBech32(p.addresses[i]) == Ok(r.value.addresses[i])
  {
    var addresses :- ParseAddresses(p.addresses, codec);
    Ok(AccessConfig(AccessTypeFromI32(p.permission), addresses))
  }

  lemma AccessConfigProtoRoundTrip(c: AccessConfig, codec: AddressCodec)
    requires LawfulAddressCodec(codec)
    ensures AccessConfigFromProto(AccessConfigToProto(c, codec), codec) == Ok(c)
  {
    var p := AccessConfigToProto(c, codec);
    var r := ParseAddresses(p.addresses, codec);
    assert r.Ok?;
    assert r.value == c.addresses;
  }

  datatype MsgStoreCode = MsgStoreCode(sender: AccAddress, wasmByteCode: seq<byte>, instantiatePermission: Option<AccessConfig>)

  function StoreCodeValidateBasic(m: MsgStoreCode): (r: Outcome)
    ensures |m.wasmByteCode| == 0 ==> r == Err(ValidationError("wasm byte code cannot be empty"))
    ensures |m.wasmByteCode| > 0 && m.instantiatePermission.None? ==> r.Ok?
    ensures |m.wasmByteCode| > 0 && m.instantiatePermission.Some? ==>
              r == AccessConfigValidateBasic(m.instantiatePermission.value)
  {
    if |m.wasmByteCode| == 0 then Err(ValidationError("wasm byte code cannot be empty"))
    else if m.instantiatePermission.Some? then AccessConfigValidateBasic(m.instantiatePermission.value)
    else Ok(())
  }

  /**
   * `char::is_whitespace`: the Unicode White_Space characters, which is what
   * `str::trim` strips from both ends.
   */
  predicate IsWhitespace(c: char)
  {
    var n := c as int;
    || (0x09 <= n <= 0x0D) || n == 0x20 || n == 0x85 || n == 0xA0 || n == 0x1680
    || (0x2000 <= n <= 0x200A) || n == 0x2028 || n == 0x2029 || n == 0x202F
    || n == 0x205F || n == 0x3000
  }

  predicate AllWhitespace(s: string)
  {
    forall i :: 0 <= i < |s| ==> IsWhitespace(s[i])
  }

  /** `t` is `s[lo..hi]`, and everything cut off on either side is white space. */
  ghost predicate WhitespaceBorders(s: string, t: string, lo: int, hi: int)
  {
    && 0 <= lo <= hi <= |s|
    && t == s[lo..hi]
    && (forall i :: 0 <= i < lo ==> IsWhitespace(s[i]))
    && (forall i :: hi <= i < |s| ==> IsWhitespace(s[i]))
  }

  /** Dropping a leading white-space character keeps the borders and the all-white-space test. */
  lemma BordersAfterFirst(s: string, tail: string, t: string)
    requires |s| > 0 && IsWhitespace(s[0]) && tail == s[1..]
    requires exists lo, hi :: WhitespaceBorders(tail, t, lo, hi)
    ensures exists lo, hi :: WhitespaceBorders(s, t, lo, hi)
    ensures AllWhitespace(s) <==> AllWhitespace(tail)
  {
    var lo, hi :| WhitespaceBorders(tail, t, lo, hi);
    assert tail[lo..hi] == s[lo + 1..hi + 1];
    assert forall i :: 1 <= i < |s| ==> s[i] == tail[i - 1];
    assert WhitespaceBorders(s, t, lo + 1, hi + 1);
  }

  /** Dropping a trailing white-space character keeps the borders and the all-white-space test. */
  lemma BordersBeforeLast(s: string, init: string, t: string)
    requires |s| > 0 && IsWhitespace(s[|s| - 1]) && init == s[..|s| - 1]
    requires exists lo, hi :: WhitespaceBorders(init, t, lo, hi)
    ensures exists lo, hi :: WhitespaceBorders(s, t, lo, hi)
    ensures AllWhitespace(s) <==> AllWhitespace(init)
  {
    var lo, hi :| WhitespaceBorders(init, t, lo, hi);
    assert init[lo..hi] == s[lo..hi];
    assert forall i :: 0 <= i < |init| ==> s[i] == init[i];
    assert WhitespaceBorders(s, t, lo, hi);
  }

  /** `str::trim`: the slice of `s` left after removing white space at both ends. */
  function Trim(s: string): (t: string)
    ensures exists lo, hi :: WhitespaceBorders(s, t, lo, hi)
    ensures |t| == 0 <==> AllWhitespace(s)
    ensures |t| > 0 ==> !IsWhitespace(t[0]) && !IsWhitespace(t[|t| - 1])
    decreases |s|
  {
    if |s| == 0 then
      assert WhitespaceBorders(s, s, 0, 0);
      s
    else if IsWhitespace(s[0]) then
      var t := Trim(s[1..]);
      BordersAfterFirst(s, s[1..], t);
      t
    else if IsWhitespace(s[|s| - 1]) then
      var t := Trim(s[..|s| - 1]);
      BordersBeforeLast(s, s[..|s| - 1], t);
      t
    else
      assert s[0..|s|] == s;
      assert WhitespaceBorders(s, s, 0, |s|);
      s
  }

  datatype MsgInstantiateContract = MsgInstantiateContract(
    sender: AccAddress,
    admin: Option<AccAddress>,
    codeId: u64,
    contractLabel: string,
    msg: seq<byte>,
    funds: Coin.UnsignedCoins)

  function InstantiateValidateBasic(m: MsgInstantiateContract): (r: Outcome)
    ensures m.codeId == 0 ==> r == Err(ValidationError("code id is required"))
    ensures m.codeId != 0 ==> (r.Ok? <==> exists i :: 0 <= i < |m.contractLabel| && !IsWhitespace(m.contractLabel[i]))
  {
    if m.codeId == 0 then Err(ValidationError("code id is required"))
    else if |Trim(m.contractLabel)| == 0 then Err(ValidationError("label cannot be empty"))
    else Ok(())
  }

  /** The wire form of the optional admin: absent is the empty string. */
  function AdminToProto(admin: Option<AccAddress>, codec: AddressCodec): (s: string)
    ensures admin.None? ==> s == []
    ensures admin.Some? ==> s == codec.toBech32(admin.value)
  {
    if admin.Some? then codec.toBech32(admin.value) else []
  }

  /** The empty string decodes to no admin; anything else must be an address. */
  function AdminFromProto(s: string, codec: AddressCodec): (r: Result<Option<AccAddress>, string>)
    ensures s == [] ==> r == Ok(None)
    ensures s != [] ==> (r.Ok? <==> codec.fromBech32(s).Ok?)
    ensures s != [] && r.Ok? ==> r.value == Some(codec.fromBech32(s).value)
  {
    if s == [] then Ok(None)
    else
      var a :- codec.fromBech32(s);
      Ok(Some(a))
  }

  lemma AdminRoundTrip(admin: Option<AccAddress>, codec: AddressCodec)
    requires LawfulAddressCodec(codec)
    ensures AdminFromProto(AdminToProto(admin, codec), codec) == Ok(admin)
  {
  }

  datatype MsgExecuteContract = MsgExecuteContract(sender: AccAddress, contract: AccAddress, msg: seq<byte>, funds: Coin.UnsignedCoins)

  function ExecuteValidateBasic(m: MsgExecuteContract): (r: Outcome)
    ensures r.Ok? <==> |m.msg| > 0
  {
    if |m.msg| == 0 then Err(ValidationError("execute message cannot be empty")) else Ok(())
  }

  datatype MsgMigrateContract = MsgMigrateContract(sender: AccAddress, contract: AccAddress, codeId: u64, msg: seq<byte>)

  function MigrateValidateBasic(m: MsgMigrateContract): (r: Outcome)
    ensures r.Ok? <==> m.codeId != 0
  {
    if m.codeId == 0 then Err(ValidationError("code id is required")) else Ok(())
  }

  datatype MsgUpdateAdmin = MsgUpdateAdmin(sender: AccAddress, newAdmin: AccAddress, contract: AccAddress)

  function UpdateAdminValidateBasic(m: MsgUpdateAdmin): (r: Outcome)
    ensures r.Ok? <==> m.sender != m.newAdmin
  {
    if m.sender == m.newAdmin then Err(ValidationError("new admin is the same as current")) else Ok(())
  }

  datatype MsgClearAdmin = MsgClearAdmin(sender: AccAddress, contract: AccAddress)

  function ClearAdminValidateBasic(m: MsgClearAdmin): (r: Outcome)
    ensures r.Ok?
  {
    Ok(())
  }

  /** The union of all wasm messages. */
  datatype Message =
    | StoreCode(storeCode: MsgStoreCode)
    | InstantiateContract(instantiate: MsgInstantiateContract)
    | ExecuteContract(execute: MsgExecuteContract)
    | MigrateContract(migrate: MsgMigrateContract)
    | UpdateAdmin(updateAdmin: MsgUpdateAdmin)
    | ClearAdmin(clearAdmin: MsgClearAdmin)

  /** The `/cosmwasm.wasm.v1.*` type URL each message is routed under. */
  function TypeUrl(m: Message): (url: string)
    ensures |url| > 0
  {
    match m
    case StoreCode(_) => "/cosmwasm.wasm.v1.MsgStoreCode"
    case InstantiateContract(_) => "/cosmwasm.wasm.v1.MsgInstantiateContract"
    case ExecuteContract(_) => "/cosmwasm.wasm.v1.MsgExecuteContract"
    case MigrateContract(_) => "/cosmwasm.wasm.v1.MsgMigrateContract"
    case UpdateAdmin(_) => "/cosmwasm.wasm.v1.MsgUpdateAdmin"
    case ClearAdmin(_) => "/cosmwasm.wasm.v1.MsgClearAdmin"
  }

  /** Distinct message kinds are routed under distinct type URLs. */
  lemma TypeUrlInjective(a: Message, b: Message)
    requires TypeUrl(a) == TypeUrl(b)
    ensures a.StoreCode? == b.StoreCode? && a.InstantiateContract? == b.InstantiateContract?
    ensures a.ExecuteContract? == b.ExecuteContract? && a.MigrateContract? == b.MigrateContract?
    ensures a.UpdateAdmin? == b.UpdateAdmin? && a.ClearAdmin? == b.ClearAdmin?
  {
  }
}

=== FILE: wasm_params.dfy ===
/**
 * The wasm module's parameters: their defaults, their key/value form in the
 * params subspace (`to_raw`/`from_raw`, with decimal text values and a fallback
 * per field), their lossy protobuf form, and the governance-time check of a
 * single key/value update.
 */
module WasmParams {
  import opened Wrappers
  import opened Bytes
  import Decimal
  import opened WasmMessage

  const KEY_CODE_UPLOAD_ACCESS: string := "code_upload_access"
  const KEY_INSTANTIATE_DEFAULT_PERMISSION: string := "instantiate_default_permission"
  const KEY_MAX_CONTRACT_SIZE: string := "max_contract_size"
  const KEY_QUERY_GAS_LIMIT: string := "query_gas_limit"
  const KEY_MEMORY_CACHE_SIZE: string := "memory_cache_size"

  const DEFAULT_MAX_CONTRACT_SIZE: u64 := 1_000_000
  const DEFAULT_QUERY_GAS_LIMIT: u64 := 3_000_000
  const DEFAULT_MEMORY_CACHE_SIZE: u32 := 40

  datatype Params = Params(
    codeUploadAccess: AccessConfig,
    instantiateDefaultPermission: AccessType,
    maxContractSize: u64,
    queryGasLimit: u64,
    memoryCacheSize: u32)

  /** `Params::default()` */
  function DefaultParams(): (p: Params)
    ensures p.codeUploadAccess == AccessConfig(Everybody, [])
    ensures p.instantiateDefaultPermission == Everybody
    ensures p.maxContractSize == 1_000_000 && p.queryGasLimit == 3_000_000 && p.memoryCacheSize == 40
  {
    Params(AccessConfig(Everybody, []), Everybody, DEFAULT_MAX_CONTRACT_SIZE, DEFAULT_QUERY_GAS_LIMIT, DEFAULT_MEMORY_CACHE_SIZE)
  }

  /** The JSON text form of an `AccessConfig`; the JSON library is not part of this model. */
  datatype JsonCodec = JsonCodec(encode: AccessConfig -> seq<byte>, decode: seq<byte> -> Option<AccessConfig>)

  /** What the JSON codec guarantees: decoding undoes encoding, and empty input is not JSON. */
  ghost predicate LawfulJsonCodec(j: JsonCodec)
  {
    && (forall c :: j.decode(j.encode(c)) == Some(c))
    && j.decode([]) == None
  }

  /** `ParamsSerialize::keys` */
  function Keys(): (ks: set<string>)
    ensures |ks| == 5
  {
    {KEY_CODE_UPLOAD_ACCESS, KEY_INSTANTIATE_DEFAULT_PERMISSION, KEY_MAX_CONTRACT_SIZE,
     KEY_QUERY_GAS_LIMIT, KEY_MEMORY_CACHE_SIZE}
  }

  /** An entry holding `n` under `key` as canonical decimal text, as `n.to_string().into_bytes()` writes it. */
  predicate DecimalEntry(e: (string, seq<byte>), key: string, n: nat)
  {
    && e.0 == key
    && Decimal.Canonical(Latin1Chars(e.1))
    && Decimal.ParseBytes(e.1) == Some(n)
  }

  /** `(key, n.to_string().into_bytes())` */
  function DecimalEntryOf(key: string, n: nat): (e: (string, seq<byte>))
    ensures DecimalEntry(e, key, n)
  {
    Decimal.PrintBytesCanonical(n);
    (key, Decimal.PrintBytes(n))
  }

  /**
   * `ParamsSerialize::to_raw`: one entry per key; the upload access as JSON, the
   * permission as its i32 discriminant in decimal, and the three numbers in decimal.
   */
  function ToRaw(p: Params, json: JsonCodec): (entries: seq<(string, seq<byte>)>)
    ensures |entries| == 5
    ensures forall i :: 0 <= i < |entries| ==> entries[i].0 in Keys()
    ensures forall i, j :: 0 <= i < j < |entries| ==> entries[i].0 != entries[j].0
    ensures entries[0] == (KEY_CODE_UPLOAD_ACCESS, json.encode(p.codeUploadAccess))
    ensures DecimalEntry(entries[1], KEY_INSTANTIATE_DEFAULT_PERMISSION, AccessTypeToI32(p.instantiateDefaultPermission))
    ensures DecimalEntry(entries[2], KEY_MAX_CONTRACT_SIZE, p.maxContractSize)
    ensures DecimalEntry(entries[3], KEY_QUERY_GAS_LIMIT, p.queryGasLimit)
    ensures DecimalEntry(entries[4], KEY_MEMORY_CACHE_SIZE, p.memoryCacheSize)
  {
    [ (KEY_CODE_UPLOAD_ACCESS, json.encode(p.codeUploadAccess)),
      DecimalEntryOf(KEY_INSTANTIATE_DEFAULT_PERMISSION, AccessTypeToI32(p.instantiateDefaultPermission)),
      DecimalEntryOf(KEY_MAX_CONTRACT_SIZE, p.maxContractSize),
      DecimalEntryOf(KEY_QUERY_GAS_LIMIT, p.queryGasLimit),
      DecimalEntryOf(KEY_MEMORY_CACHE_SIZE, p.memoryCacheSize) ]
  }

  /** The key/value map the subspace hands to `from_raw` (a later entry replaces an earlier one). */
  function RawMap(entries: seq<(string, seq<byte>)>): (m: map<string, seq<byte>>)
    ensures m.Keys == set i | 0 <= i < |entries| :: entries[i].0
  {
    if |entries| == 0 then map[]
    else
      var last := entries[|entries| - 1];
      var m := RawMap(entries[..|entries| - 1])[last.0 := last.1];
      assert forall i :: 0 <= i < |entries| - 1 ==> entries[i] == entries[..|entries| - 1][i];
      m
  }

  /** With distinct keys, every entry can be looked up under its own key. */
  lemma {:induction false} RawMapLookup(entries: seq<(string, seq<byte>)>, i: nat)
    requires i < |entries|
    requires forall a, b :: 0 <= a < b < |entries| ==> entries[a].0 != entries[b].0
    ensures entries[i].0 in RawMap(entries) && RawMap(entries)[entries[i].0] == entries[i].1
  {
    if i < |entries| - 1 {
      var init := entries[..|entries| - 1];
      RawMapLookup(init, i);
    }
  }

  lemma ToRawKeys(p: Params, json: JsonCodec)
    ensures RawMap(ToRaw(p, json)).Keys == Keys()
  {
    var es := ToRaw(p, json);
    assert es[0].0 == KEY_CODE_UPLOAD_ACCESS && es[1].0 == KEY_INSTANTIATE_DEFAULT_PERMISSION;
    assert es[2].0 == KEY_MAX_CONTRACT_SIZE && es[3].0 == KEY_QUERY_GAS_LIMIT && es[4].0 == KEY_MEMORY_CACHE_SIZE;
  }

  /** `fields.remove(key).unwrap_or_default()` */
  function Field(fields: map<string, seq<byte>>, key: string): seq<byte>
  {
    if key in fields then fields[key] else []
  }

  /** `ParamKind::U64.parse_param(..).unsigned_64().unwrap_or(default)` */
  function U64Or(bytes: seq<byte>, default: u64): (n: u64)
    ensures Decimal.ParseU64Bytes(bytes).Some? ==> n == Decimal.ParseU64Bytes(bytes).value
    ensures Decimal.ParseU64Bytes(bytes).None? ==> n == default
  {
    Decimal.ParseU64Bytes(bytes).GetOr(default)
  }

  /**
   * `ParamsDeserialize::from_raw`. The permission is parsed as a u64 (0 when
   * missing or malformed) and narrowed `as i32` before the 1/3/4 mapping; the
   * cache size is parsed as a u64 and narrowed `as u32`.
   */
  function FromRaw(fields: map<string, seq<byte>>, json: JsonCodec): (p: Params)
    ensures json.decode(Field(fields, KEY_CODE_UPLOAD_ACCESS)).None? ==> p.codeUploadAccess == DEFAULT_ACCESS_CONFIG
    ensures json.decode(Field(fields, KEY_CODE_UPLOAD_ACCESS)).Some? ==>
              p.codeUploadAccess == json.decode(Field(fields, KEY_CODE_UPLOAD_ACCESS)).value
    ensures var low := TruncateU32(U64Or(Field(fields, KEY_INSTANTIATE_DEFAULT_PERMISSION), 0));
      && (p.instantiateDefaultPermission == Nobody <==> low == 1)
      && (p.instantiateDefaultPermission == Everybody <==> low == 3)
      && (p.instantiateDefaultPermission == AnyOfAddresses <==> low == 4)
    ensures p.maxContractSize == U64Or(Field(fields, KEY_MAX_CONTRACT_SIZE), DEFAULT_MAX_CONTRACT_SIZE)
    ensures p.queryGasLimit == U64Or(Field(fields, KEY_QUERY_GAS_LIMIT), DEFAULT_QUERY_GAS_LIMIT)
    ensures p.memoryCacheSize == TruncateU32(U64Or(Field(fields, KEY_MEMORY_CACHE_SIZE), DEFAULT_MEMORY_CACHE_SIZE))
  {
    var access := json.decode(Field(fields, KEY_CODE_UPLOAD_ACCESS)).GetOr(DEFAULT_ACCESS_CONFIG);
    var permission := AccessTypeFromI32(TruncateI32(U64Or(Field(fields, KEY_INSTANTIATE_DEFAULT_PERMISSION), 0)));
    var maxContractSize := U64Or(Field(fields, KEY_MAX_CONTRACT_SIZE), DEFAULT_MAX_CONTRACT_SIZE);
    var queryGasLimit := U64Or(Field(fields, KEY_QUERY_GAS_LIMIT), DEFAULT_QUERY_GAS_LIMIT);
    var memoryCacheSize := TruncateU32(U64Or(Field(fields, KEY_MEMORY_CACHE_SIZE), DEFAULT_MEMORY_CACHE_SIZE));
    Params(access, permission, maxContractSize, queryGasLimit, memoryCacheSize)
  }

  /**
   * Reading back what `to_raw` wrote restores every numeric field and the
   * default permission, and with a lawful JSON codec the upload access too.
   */
  lemma FromRawToRaw(p: Params, json: JsonCodec)
    ensures var q := FromRaw(RawMap(ToRaw(p, json)), json);
      && q.instantiateDefaultPermission == p.instantiateDefaultPermission
      && q.maxContractSize == p.maxContractSize
      && q.queryGasLimit == p.queryGasLimit
      && q.memoryCacheSize == p.memoryCacheSize
    ensures LawfulJsonCodec(json) ==> FromRaw(RawMap(ToRaw(p, json)), json) == p
  {
    var m := RawMap(ToRaw(p, json));
    var es := ToRaw(p, json);
    RawMapLookup(es, 0);
    RawMapLookup(es, 1);
    RawMapLookup(es, 2);
    RawMapLookup(es, 3);
    RawMapLookup(es, 4);
    assert m[KEY_CODE_UPLOAD_ACCESS] == json.encode(p.codeUploadAccess);
    assert m[KEY_INSTANTIATE_DEFAULT_PERMISSION] == Decimal.PrintBytes(AccessTypeToI32(p.instantiateDefaultPermission));
    assert m[KEY_MAX_CONTRACT_SIZE] == Decimal.PrintBytes(p.maxContractSize);
    assert m[KEY_QUERY_GAS_LIMIT] == Decimal.PrintBytes(p.queryGasLimit);
    assert m[KEY_MEMORY_CACHE_SIZE] == Decimal.PrintBytes(p.memoryCacheSize);
    Decimal.ParseU64PrintBytes(AccessTypeToI32(p.instantiateDefaultPermission));
    Decimal.ParseU64PrintBytes(p.maxContractSize);
    Decimal.ParseU64PrintBytes(p.queryGasLimit);
    Decimal.ParseU64PrintBytes(p.memoryCacheSize);
  }

  /**
   * With no stored fields every value falls back: the limits to their defaults,
   * but the permission to `Unspecified` and the upload access to the empty
   * `AccessConfig`, which differ from `Params::default()`.
   */
  lemma FromRawEmpty(json: JsonCodec)
    requires LawfulJsonCodec(json)
    ensures FromRaw(map[], json) == Params(DEFAULT_ACCESS_CONFIG, Unspecified, 1_000_000, 3_000_000, 40)
    ensures FromRaw(map[], json) != DefaultParams()
  {
    Decimal.ParseU64Empty();
  }

  /** Malformed numbers fall back like missing ones. */
  lemma FromRawMalformed(fields: map<string, seq<byte>>, json: JsonCodec)
    requires Decimal.ParseU64Bytes(Field(fields, KEY_INSTANTIATE_DEFAULT_PERMISSION)).None?
    requires Decimal.ParseU64Bytes(Field(fields, KEY_MEMORY_CACHE_SIZE)).None?
    ensures FromRaw(fields, json).instantiateDefaultPermission == Unspecified
    ensures FromRaw(fields, json).memoryCacheSize == DEFAULT_MEMORY_CACHE_SIZE
  {
  }

  /**
   * The narrowing casts are visible in any map: a stored permission is read as
   * a u64 and cut to its low 32 bits, so 2^32 + 1 reads back as `Nobody`; a
   * stored cache size of 2^32 + 40 reads back as 40.
   */
  lemma FromRawNarrows(fields: map<string, seq<byte>>, n: u64, json: JsonCodec)
    ensures Field(fields, KEY_INSTANTIATE_DEFAULT_PERMISSION) == Decimal.PrintBytes(n) ==>
              FromRaw(fields, json).instantiateDefaultPermission == AccessTypeFromI32(TruncateI32(n))
    ensures Field(fields, KEY_MEMORY_CACHE_SIZE) == Decimal.PrintBytes(n) ==>
              FromRaw(fields, json).memoryCacheSize == TruncateU32(n)
    ensures n == 0x1_0000_0001 && Field(fields, KEY_INSTANTIATE_DEFAULT_PERMISSION) == Decimal.PrintBytes(n) ==>
              FromRaw(fields, json).instantiateDefaultPermission == Nobody
    ensures n == 0x1_0000_0028 && Field(fields, KEY_MEMORY_CACHE_SIZE) == Decimal.PrintBytes(n) ==>
              FromRaw(fields, json).memoryCacheSize == 40
  {
    Decimal.ParseU64PrintBytes(n);
  }

  /** The cosmos-sdk-proto `Params`: only upload access and the default permission. */
  datatype ProtoParams = ProtoParams(codeUploadAccess: Option<ProtoAccessConfig>, instantiateDefaultPermission: int)

  /** `From<Params>`: drops the three runtime fields. */
  function ToProto(p: Params, codec: AddressCodec): (pp: ProtoParams)
    ensures pp.codeUploadAccess == Some(AccessConfigToProto(p.codeUploadAccess, codec))
    ensures AccessTypeFromI32(pp.instantiateDefaultPermission) == p.instantiateDefaultPermission
  {
    AccessTypeRoundTrip(p.instantiateDefaultPermission);
    ProtoParams(Some(AccessConfigToProto(p.codeUploadAccess, codec)), AccessTypeToI32(p.instantiateDefaultPermission))
  }

  /**
   * `TryFrom<ProtoParams>`: a missing upload access becomes `Unspecified` with
   * no addresses, and the three runtime fields always take their defaults.
   */
  function FromProto(pp: ProtoParams, codec: AddressCodec): (r: Result<Params, string>)
    ensures pp.codeUploadAccess.None? ==> r.Ok? && r.value.codeUploadAccess == DEFAULT_ACCESS_CONFIG
    ensures pp.codeUploadAccess.Some? ==> (r.Ok? <==> AccessConfigFromProto(pp.codeUploadAccess.value, codec).Ok?)
    ensures pp.codeUploadAccess.Some? && r.Ok? ==>
              r.value.codeUploadAccess == AccessConfigFromProto(pp.codeUploadAccess.value, codec).value
    ensures r.Ok? ==> r.value.instantiateDefaultPermission == AccessTypeFromI32(pp.instantiateDefaultPermission)
    ensures r.Ok? ==> r.value.maxContractSize == 1_000_000 && r.value.queryGasLimit == 3_000_000
                      && r.value.memoryCacheSize == 40
  {
    var access :- if pp.codeUploadAccess.Some? then AccessConfigFromProto(pp.codeUploadAccess.value, codec)
                  else Ok(AccessConfig(Unspecified, []));
    var d := DefaultParams();
    Ok(Params(access, AccessTypeFromI32(pp.instantiateDefaultPermission), d.maxContractSize, d.queryGasLimit, d.memoryCacheSize))
  }

  /** The protobuf trip keeps what the wire carries and resets the rest. */
  lemma ProtoRoundTrip(p: Params, codec: AddressCodec)
    requires LawfulAddressCodec(codec)
    ensures FromProto(ToProto(p, codec), codec) == Ok(p.(maxContractSize := 1_000_000, queryGasLimit := 3_000_000, memoryCacheSize := 40))
  {
    AccessConfigProtoRoundTrip(p.codeUploadAccess, codec);
  }

  function NumericKeys(): set<string>
  {
    {KEY_INSTANTIATE_DEFAULT_PERMISSION, KEY_MAX_CONTRACT_SIZE, KEY_QUERY_GAS_LIMIT, KEY_MEMORY_CACHE_SIZE}
  }

  /**
   * `WasmParamsKeeper::validate` for one raw key/value update: the upload access
   * must be JSON for an `AccessConfig`, the four numeric keys must hold a u64,
   * and any other key is rejected. The key is compared as text; bytes that are
   * not ASCII never spell one of the (ASCII) key names, just as a key that is not
   * UTF-8 is read as the empty string and matches none.
   */
  function Validate(key: seq<byte>, value: seq<byte>, json: JsonCodec): (ok: bool)
    ensures Latin1Chars(key) == KEY_CODE_UPLOAD_ACCESS ==> (ok <==> json.decode(value).Some?)
    ensures Latin1Chars(key) in NumericKeys() ==> (ok <==> Decimal.ParseU64Bytes(value).Some?)
    ensures Latin1Chars(key) !in Keys() ==> !ok
  {
    var name := Latin1Chars(key);
    if name == KEY_CODE_UPLOAD_ACCESS then json.decode(value).Some?
    else if name in NumericKeys() then Decimal.ParseU64Bytes(value).Some?
    else false
  }

  /** The key names are plain ASCII, so they are stored as their own bytes. */
  lemma KeysAscii()
    ensures forall k :: k in Keys() ==> IsAscii(k)
  {
    assert IsAscii(KEY_CODE_UPLOAD_ACCESS);
    assert IsAscii(KEY_INSTANTIATE_DEFAULT_PERMISSION);
    assert IsAscii(KEY_MAX_CONTRACT_SIZE);
    assert IsAscii(KEY_QUERY_GAS_LIMIT);
    assert IsAscii(KEY_MEMORY_CACHE_SIZE);
  }

  /** A numeric key paired with a printed number passes the update check. */
  lemma NumericEntryValidates(key: string, n: u64, json: JsonCodec)
    requires key in NumericKeys() && IsAscii(key)
    ensures Validate(AsciiBytes(key), Decimal.PrintBytes(n), json)
  {
    AsciiBytesRoundTrip(key);
    Decimal.ParseU64PrintBytes(n);
  }

  /** Every entry `to_raw` writes passes the update check. */
  lemma ToRawValidates(p: Params, json: JsonCodec, i: nat)
    requires LawfulJsonCodec(json)
    requires i < 5
    ensures IsAscii(ToRaw(p, json)[i].0)
    ensures Validate(AsciiBytes(ToRaw(p, json)[i].0), ToRaw(p, json)[i].1, json)
  {
    var es := ToRaw(p, json);
    KeysAscii();
    assert IsAscii(es[i].0);
    if i == 0 {
      AsciiBytesRoundTrip(KEY_CODE_UPLOAD_ACCESS);
      assert json.decode(json.encode(p.codeUploadAccess)).Some?;
    } else if i == 1 {
      NumericEntryValidates(KEY_INSTANTIATE_DEFAULT_PERMISSION, AccessTypeToI32(p.instantiateDefaultPermission), json);
    } else if i == 2 {
      NumericEntryValidates(KEY_MAX_CONTRACT_SIZE, p.maxContractSize, json);
    } else if i == 3 {
      NumericEntryValidates(KEY_QUERY_GAS_LIMIT, p.queryGasLimit, json);
    } else {
      NumericEntryValidates(KEY_MEMORY_CACHE_SIZE, p.memoryCacheSize, json);
    }
  }
}

=== FILE: wasmvm.dfy ===
/**
 * The pure parts of the `wasmvm` wrapper: checksum creation with its input
 * checks, the compile cost charged per byte, the gas check `store_code` makes
 * before calling into the VM, and the splitting of the comma-separated lists in
 * a code analysis report. The native VM calls are oracles given as parameters.
 */
module Wasmvm {
  import opened Wrappers
  import opened Bytes

  datatype WasmvmError = EmptyWasm | TooShort | MissingMagic | Other

  /** The module preamble `\0asm` (section 5.5.16 of the WebAssembly Core Specification 2.0). */
  const WASM_MAGIC: seq<byte> := [0x00, 0x61, 0x73, 0x6d]

  /**
   * `create_checksum`: empty input, then input shorter than the magic number,
   * then a wrong magic number are rejected, in that order; otherwise the
   * checksum is the SHA-256 digest (`sha256`, FIPS 180-4) of the whole input.
   */
  function CreateChecksum(wasm: seq<byte>, sha256: seq<byte> -> Bytes32): (r: Result<Bytes32, WasmvmError>)
    ensures r.Ok? <==> |wasm| >= 4 && wasm[..4] == WASM_MAGIC
    ensures r.Ok? ==> r.value == sha256(wasm)
    ensures r.Err? && r.error.EmptyWasm? <==> |wasm| == 0
    ensures r.Err? && r.error.TooShort? <==> 1 <= |wasm| < 4
    ensures r.Err? && r.error.MissingMagic? <==> |wasm| >= 4 && wasm[..4] != WASM_MAGIC
  {
    if |wasm| == 0 then Err(EmptyWasm)
    else if |wasm| < 4 then Err(TooShort)
    else if wasm[..4] != WASM_MAGIC then Err(MissingMagic)
    else Ok(sha256(wasm))
  }

  /** Any input that starts with the magic number is accepted, whatever follows it. */
  lemma ChecksumOfModule(body: seq<byte>, sha256: seq<byte> -> Bytes32)
    ensures CreateChecksum(WASM_MAGIC + body, sha256) == Ok(sha256(WASM_MAGIC + body))
  {
    assert (WASM_MAGIC + body)[..4] == WASM_MAGIC;
  }

  /** `COST_PER_BYTE`: 3 * 140_000 gas units. */
  const COST_PER_BYTE: u64 := 3 * 140_000

  /** The longest code whose cost fits in a u64. */
  const MAX_EXACT_COST_LEN: nat := U64_MAX / COST_PER_BYTE

  /**
   * `compile_cost(len)`: `COST_PER_BYTE * len as u64`, a u64 product that wraps
   * on overflow in release builds.
   */
  function CompileCost(len: usize): (cost: u64)
    ensures len <= MAX_EXACT_COST_LEN ==> cost == 420_000 * len
  {
    (COST_PER_BYTE * len) % (U64_MAX + 1)
  }

  /** Within the exact range, longer code never costs less. */
  lemma CompileCostMonotone(a: usize, b: usize)
    requires a <= b <= MAX_EXACT_COST_LEN
    ensures CompileCost(a) <= CompileCost(b)
  {
  }

  /** The messages `VM::store_code` fails with before and after the native call. */
  const OUT_OF_GAS: string := "out of gas"
  const BAD_CHECKSUM_LENGTH: string := "invalid checksum length"

  /**
   * `VM::store_code`, given the native call as an oracle from code to either
   * the returned bytes or an error message. The gas check comes first, so when
   * it fails the oracle's answer is never consulted.
   */
  function StoreCode(code: seq<byte>, gasLimit: u64, ffiStoreCode: seq<byte> -> Result<seq<byte>, string>)
    : (r: Result<(Bytes32, u64), string>)
    requires |code| <= USIZE_MAX
    ensures gasLimit < CompileCost(|code|) ==> r == Err(OUT_OF_GAS)
    ensures r.Ok? ==> r.value.1 == CompileCost(|code|) && r.value.1 <= gasLimit
    ensures r.Ok? ==> ffiStoreCode(code) == Ok(r.value.0)
    ensures gasLimit >= CompileCost(|code|) && ffiStoreCode(code).Err? ==> r == Err(ffiStoreCode(code).error)
    ensures gasLimit >= CompileCost(|code|) && ffiStoreCode(code).Ok? && |ffiStoreCode(code).value| != 32
            ==> r == Err(BAD_CHECKSUM_LENGTH)
    ensures gasLimit >= CompileCost(|code|) && ffiStoreCode(code).Ok? && |ffiStoreCode(code).value| == 32
            ==> r == Ok((ffiStoreCode(code).value, CompileCost(|code|)))
  {
    var cost := CompileCost(|code|);
    if gasLimit < cost then Err(OUT_OF_GAS)
    else
      var data :- ffiStoreCode(code);
      if |data| != 32 then Err(BAD_CHECKSUM_LENGTH) else Ok((data, cost))
  }

  /** The out-of-gas answer does not depend on the native code at all. */
  lemma OutOfGasBeforeForeignCall(code: seq<byte>, gasLimit: u64,
                                  f: seq<byte> -> Result<seq<byte>, string>, g: seq<byte> -> Result<seq<byte>, string>)
    requires |code| <= USIZE_MAX
    requires gasLimit < CompileCost(|code|)
    ensures StoreCode(code, gasLimit, f) == StoreCode(code, gasLimit, g)
  {
  }

  /** A piece of a comma-separated list holds no comma. */
  predicate NoComma(s: string) {
    ',' !in s
  }

  /** `str::split(',')`: the pieces between commas, always at least one. */
  function Split(s: string): (pieces: seq<string>)
    ensures |pieces| >= 1
    ensures forall i :: 0 <= i < |pieces| ==> NoComma(pieces[i])
  {
    if |s| == 0 then [[]]
    else
      var rest := Split(s[1..]);
      if s[0] == ',' then [[]] + rest
      else [[s[0]] + rest[0]] + rest[1..]
  }

  /** There is one piece more than there are commas. */
  lemma {:induction false} SplitCount(s: string)
    ensures |Split(s)| == multiset(s)[','] + 1
  {
    if |s| > 0 {
      SplitCount(s[1..]);
      assert s == [s[0]] + s[1..];
      assert multiset(s) == multiset([s[0]]) + multiset(s[1..]);
    }
  }

  /** Joins pieces with commas between them. */
  function Join(pieces: seq<string>): string
    requires |pieces| >= 1
  {
    if |pieces| == 1 then pieces[0] else pieces[0] + [','] + Join(pieces[1..])
  }

  lemma {:induction false} JoinSplit(s: string)
    ensures Join(Split(s)) == s
  {
    if |s| > 0 {
      JoinSplit(s[1..]);
      var rest := Split(s[1..]);
      if s[0] != ',' {
        if |rest| == 1 {
          assert Split(s) == [[s[0]] + rest[0]];
        } else {
          assert Split(s)[1..] == rest[1..];
        }
      } else {
        assert Split(s)[1..] == rest;
      }
    }
  }

  /** A leading comma ends an empty first piece. */
  lemma SplitComma(t: string)
    ensures Split([','] + t) == [[]] + Split(t)
  {
    assert ([','] + t)[1..] == t;
  }

  /** Comma-free text in front only lengthens the first piece. */
  lemma {:induction false} SplitPrefix(p: string, t: string)
    requires NoComma(p)
    ensures Split(p + t) == [p + Split(t)[0]] + Split(t)[1..]
  {
    if |p| > 0 {
      assert NoComma(p[1..]) by {
        assert forall c :: c in p[1..] ==> c in p;
      }
      SplitPrefix(p[1..], t);
      assert (p + t)[1..] == p[1..] + t;
      assert p[0] in p;
      assert [p[0]] + (p[1..] + Split(t)[0]) == p + Split(t)[0];
    } else {
      assert p + t == t;
      assert Split(t) == [Split(t)[0]] + Split(t)[1..];
      assert p + Split(t)[0] == Split(t)[0];
    }
  }

  lemma {:induction false} SplitJoin(pieces: seq<string>)
    requires |pieces| >= 1
    requires forall i :: 0 <= i < |pieces| ==> NoComma(pieces[i])
    ensures Split(Join(pieces)) == pieces
  {
    var p := pieces[0];
    assert NoComma(p);
    if |pieces| == 1 {
      SplitPrefix(p, []);
      assert p + [] == p;
    } else {
      var rest := pieces[1..];
      var t := [','] + Join(rest);
      assert Split(t) == [[]] + rest by {
        SplitJoin(rest);
        SplitComma(Join(rest));
      }
      assert Split(p + t) == pieces by {
        SplitPrefix(p, t);
        assert p + [] == p;
      }
      assert Join(pieces) == p + t by {
        assert Join(pieces) == p + [','] + Join(rest);
      }
    }
  }

  /**
   * Comma-free pieces that join back to `s` are exactly what splitting `s`
   * yields, so a join and the absence of commas pin a split down.
   */
  lemma SplitUnique(pieces: seq<string>, s: string)
    requires |pieces| >= 1 && Join(pieces) == s
    requires forall i :: 0 <= i < |pieces| ==> NoComma(pieces[i])
    ensures pieces == Split(s)
  {
    SplitJoin(pieces);
  }

  /** How `analyze_code` turns a comma-separated list into entries: empty text is an empty list. */
  function SplitList(s: string): (entries: seq<string>)
    ensures |s| == 0 ==> entries == []
    ensures |s| > 0 ==> |entries| >= 1 && |entries| == multiset(s)[','] + 1 && Join(entries) == s
    ensures forall i :: 0 <= i < |entries| ==> NoComma(entries[i])
  {
    if |s| == 0 then [] else JoinSplit(s); SplitCount(s); Split(s)
  }

  /** `Analysis`: the report with its two lists split. */
  datatype Analysis = Analysis(
    hasIbcEntryPoints: bool,
    entrypoints: seq<string>,
    requiredCapabilities: seq<string>,
    contractMigrateVersion: Option<u64>)

  /** The raw report the native call hands back. */
  datatype AnalysisReport = AnalysisReport(
    hasIbcEntryPoints: bool,
    entrypoints: string,
    requiredCapabilities: string,
    contractMigrateVersion: Option<u64>)

  function FromReport(report: AnalysisReport): (a: Analysis)
    ensures a.hasIbcEntryPoints == report.hasIbcEntryPoints
    ensures a.contractMigrateVersion == report.contractMigrateVersion
    ensures |report.entrypoints| == 0 <==> a.entrypoints == []
    ensures |report.requiredCapabilities| == 0 <==> a.requiredCapabilities == []
    ensures |report.entrypoints| > 0 ==> |a.entrypoints| >= 1 && Join(a.entrypoints) == report.entrypoints
    ensures |report.requiredCapabilities| > 0 ==> |a.requiredCapabilities| >= 1 && Join(a.requiredCapabilities) == report.requiredCapabilities
    ensures forall i :: 0 <= i < |a.entrypoints| ==> NoComma(a.entrypoints[i])
    ensures forall i :: 0 <= i < |a.requiredCapabilities| ==> NoComma(a.requiredCapabilities[i])
  {
    Analysis(report.hasIbcEntryPoints, SplitList(report.entrypoints), SplitList(report.requiredCapabilities),
             report.contractMigrateVersion)
  }

  /** A non-empty list in the report comes out as `str::split(',')` of its text. */
  lemma FromReportSplits(report: AnalysisReport)
    ensures |report.entrypoints| > 0 ==> FromReport(report).entrypoints == Split(report.entrypoints)
    ensures |report.requiredCapabilities| > 0 ==> FromReport(report).requiredCapabilities == Split(report.requiredCapabilities)
  {
    var a := FromReport(report);
    if |report.entrypoints| > 0 {
      SplitUnique(a.entrypoints, report.entrypoints);
    }
    if |report.requiredCapabilities| > 0 {
      SplitUnique(a.requiredCapabilities, report.requiredCapabilities);
    }
  }
}

=== FILE: wrappers.dfy ===
/** Failure-compatible Option and Result types shared by every module. */
module Wrappers {

  datatype Option<+T> = None | Some(value: T) {
    predicate IsFailure() { None? }

    function PropagateFailure<U>(): Option<U>
      requires None?
    {
      None
    }

    function Extract(): T
      requires Some?
    {
      value
    }

    /** `unwrap_or(default)` */
    function GetOr(default: T): T
    {
      match this
      case Some(v) => v
      case None => default
    }
  }

  datatype Result<+R, +E> = Ok(value: R) | Err(error: E) {
    predicate IsFailure() { Err? }

    function PropagateFailure<U>(): Result<U, E>
      requires Err?
    {
      Err(error)
    }

    function Extract(): R
      requires Ok?
    {
      value
    }
  }
}
